=== FILE: README.md ===
# FiPy partition IDs and solver facades, in Dafny

This project models three small, sequential parts of FiPy, a finite-volume
PDE solver written in Python, and proves properties of them.

- **Structured-grid partition IDs** (`fipy/meshes/gridlike.py`). A slab of a
  partitioned 1D, 2D or 3D grid computes its cell IDs (and in 1D its face
  IDs) as four contiguous `numpy.arange` ranges. The ranges are local or
  global, and they include or exclude the ghost layers shared with
  neighbouring slabs. `repr_` renders the grid's constructor arguments.
  Modules: `Ranges` (`ranges.dfy`), `Gridlike`, `Gridlike1D`, `Gridlike2D`
  and `Gridlike3D` (`gridlike.dfy`).
- **Tolerance adapters of three solver backends.** Each backend turns a
  convergence criterion (`default`, `unscaled`, `RHS`, `matrix`, `initial`,
  `solution`, `legacy`) into a scale factor and a native convergence token.
  The solve then hands the backend the scaled tolerance and rescales the
  residual it reports.
  - AztecOO (Trilinos): module `AztecOOSolver`, file `aztecoo.dfy`.
  - pysparse: module `PysparseSolver`, file `pysparse.dfy`.
  - AMGX: module `PyAMGXSolver`, file `pyamgx.dfy`.
  - The shared vocabulary (criteria, tokens, norms, the convergence record,
    the exceptions) is in `SolverBase` (`solver_base.dfy`).
- **The Trilinos solver facade** (`fipy/solvers/trilinos/trilinosSolver.py`).
  It stores the variable, matrix and right-hand side, and caches the global
  matrix and Epetra vectors. A dirty flag decides when the cache is refilled.
  The refill writes values at stacked component IDs, and a map guard runs
  before the solve. Modules: `StackedIDs` (`stacked_ids.dfy`) and
  `TrilinosSolver` (`trilinos.dfy`). `Results` (`results.dfy`) holds `Option`
  and `Result`.

Python exceptions are `Err` values of a `Result`. Each call into a foreign
library is a parameter of the function that makes it: a status record, or a
function-typed argument. Those libraries are AztecOO's `Iterate`, pysparse's
`solveFnc`, the AMGX solver, Epetra's `ReplaceMyValues` and `Import`, and
`_getTrilinosMatrix`. Floating-point numbers are modelled as `real`, and
norms are abstract reals.

Two behaviours of the AMGX backend are modelled as the code has them, not as
they may have been meant:
- `dict.copy()` is shallow, so the configuration writes of `__init__` and
  `_solve_` land in the `"solver"` section that the class dictionary shares.
  `PyAMGXSolver.PreconditionerLeaks` shows one construction's preconditioner
  reaching the next.
- `_solve_` builds a configuration with the scaled tolerance, but only hands
  it to a local solver that never solves. The solve, its status and its
  residual come from the attribute `self.solver`, modelled as the parameter
  `solveFnc`. `PyAMGXSolver.ToleranceDoesNotReachSolve` shows that the
  tolerance does not affect the result.

## Model

| member | source | states |
|---|---|---|
| `Gridlike.ReprParts` | fipy/meshes/gridlike.py:68-75 | Succeeds exactly when every spacing and count name is an argument. It yields one part per spacing plus one per count that is not None. Joined with `, `, the parts are the axes' renderings in order: each is `d=str(v)`, followed by `, n=str(v)` only when that count is not None. On failure it names the first missing key of the first pair that lacks one. |
| `Gridlike.Repr` | fipy/meshes/gridlike.py:68-75 | Succeeds exactly when every name is an argument. The result is `ClassName(` followed by the axes' renderings separated by `, `, then `)`. A failure is the parts' KeyError. |
| `Gridlike.ReprPartsAppend` | fipy/meshes/gridlike.py:70-74 | The parts of a concatenation of name pairs are the parts of each half, in order. |
| `Gridlike.JoinAppend` | fipy/meshes/gridlike.py:75 | Joining two non-empty lists of parts puts exactly one separator between the joins of each. |
| `Gridlike.OneAxisRepr` | fipy/meshes/gridlike.py:68-81 | A 1D grid renders as `C(dx=v)`, or as `C(dx=v, nx=n)` when nx is not None. |
| `Gridlike.TwoAxisRepr` | fipy/meshes/gridlike.py:228-230 | A 2D grid renders both spacings in order, each followed by `, n=...` only when its count is not None. |
| `Gridlike.ThreeAxisReprWhenKeyed` | fipy/meshes/gridlike.py:318-320 | When all six names are arguments, a 3D grid renders dx, dy and dz in order, each followed by `, n=...` only when its count is not None. |
| `Gridlike1D.Repr` | fipy/meshes/gridlike.py:80-81 | The exact 1D rendering, and KeyError exactly when dx or nx is not an argument. |
| `Gridlike1D.GlobalNonOverlappingCellIDs` | fipy/meshes/gridlike.py:86-102 | x is an ID exactly when offset+left <= x < offset+nx-right. |
| `Gridlike1D.GlobalOverlappingCellIDs` | fipy/meshes/gridlike.py:105-119 | x is an ID exactly when offset <= x < offset+nx. |
| `Gridlike1D.LocalNonOverlappingCellIDs` | fipy/meshes/gridlike.py:122-137 | x is an ID exactly when left <= x < nx-right. |
| `Gridlike1D.LocalOverlappingCellIDs` | fipy/meshes/gridlike.py:140-154 | x is an ID exactly when 0 <= x < nx. |
| `Gridlike1D.GlobalNonOverlappingFaceIDs` | fipy/meshes/gridlike.py:157-172 | x is an ID exactly when offset+left <= x < offset+numberOfFaces-right. |
| `Gridlike1D.GlobalOverlappingFaceIDs` | fipy/meshes/gridlike.py:175-189 | x is an ID exactly when offset <= x < offset+numberOfFaces. |
| `Gridlike1D.LocalNonOverlappingFaceIDs` | fipy/meshes/gridlike.py:192-207 | x is an ID exactly when left <= x < numberOfFaces-right. |
| `Gridlike1D.LocalOverlappingFaceIDs` | fipy/meshes/gridlike.py:210-224 | x is an ID exactly when 0 <= x < numberOfFaces. |
| `Gridlike1D.CellsGlobalIsShiftedLocal` | fipy/meshes/gridlike.py:101-154 | The global cell ranges (overlapping and not) are the local ones with offset added to every element. |
| `Gridlike1D.CellsNonOverlappingWithinOverlapping` | fipy/meshes/gridlike.py:101-154 | With left, right >= 0 and left+right <= nx, the non-overlapping cells are the overlapping ones with left cut from the front and right from the back. There are nx-left-right of them, locally and globally. |
| `Gridlike1D.FacesAreCellsOfFaceCount` | fipy/meshes/gridlike.py:157-224 | Each face range is the matching cell range with numberOfFaces in place of nx. |
| `Gridlike1D.FacesNonOverlappingWithinOverlapping` | fipy/meshes/gridlike.py:157-224 | The face ranges have the same slice, count and offset-shift relations as the cell ranges. |
| `Gridlike2D.GlobalNonOverlappingCellIDs` | fipy/meshes/gridlike.py:235-253 | x is an ID exactly when (offset[1]+bottom)*nx <= x < (offset[1]+ny-top)*nx. |
| `Gridlike2D.GlobalOverlappingCellIDs` | fipy/meshes/gridlike.py:256-273 | x is an ID exactly when offset[1]*nx <= x < (offset[1]+ny)*nx. |
| `Gridlike2D.LocalNonOverlappingCellIDs` | fipy/meshes/gridlike.py:276-294 | x is an ID exactly when bottom*nx <= x < (ny-top)*nx. |
| `Gridlike2D.LocalOverlappingCellIDs` | fipy/meshes/gridlike.py:297-314 | x is an ID exactly when 0 <= x < ny*nx. |
| `Gridlike2D.Repr` | fipy/meshes/gridlike.py:229-230 | The exact 2D rendering, and KeyError exactly when one of dx, nx, dy, ny is missing. |
| `Gridlike2D.RowRanges` | fipy/meshes/gridlike.py:252-314 | The ranges are whole rows of width nx. Non-overlapping is overlapping without the bottom and top ghost rows, with (ny-bottom-top)*nx IDs. Global is local shifted by offset[1]*nx. |
| `Gridlike2D.OwnedByRow` | fipy/meshes/gridlike.py:252-253 | For nx > 0, a global ID is one of the slab's own cells exactly when its row x/nx lies in [offset[1]+bottom, offset[1]+ny-top). |
| `Gridlike3D.GlobalNonOverlappingCellIDs` | fipy/meshes/gridlike.py:325-333 | x is an ID exactly when (offset[2]+front)*nx*ny <= x < (offset[2]+nz-back)*nx*ny. |
| `Gridlike3D.GlobalOverlappingCellIDs` | fipy/meshes/gridlike.py:336-345 | x is an ID exactly when offset[2]*nx*ny <= x < (offset[2]+nz)*nx*ny. |
| `Gridlike3D.LocalNonOverlappingCellIDs` | fipy/meshes/gridlike.py:348-356 | x is an ID exactly when front*nx*ny <= x < (nz-back)*nx*ny. |
| `Gridlike3D.LocalOverlappingCellIDs` | fipy/meshes/gridlike.py:359-366 | x is an ID exactly when 0 <= x < nx*ny*nz. |
| `Gridlike3D.Repr` | fipy/meshes/gridlike.py:319-320 | The exact 3D rendering, and KeyError exactly when one of dx, nx, dy, ny, dz, nz is missing. |
| `Gridlike3D.PlaneRanges` | fipy/meshes/gridlike.py:332-366 | The ranges are whole xy-planes of nx*ny cells. Non-overlapping is overlapping without the front and back ghost planes. Global is local shifted by offset[2]*nx*ny. |
| `Gridlike3D.OwnedByPlane` | fipy/meshes/gridlike.py:332-333 | For nx, ny > 0, a global ID is one of the slab's own cells exactly when its plane x/(nx*ny) lies in [offset[2]+front, offset[2]+nz-back). |
| `AztecOOSolver.Adapt` | fipy/solvers/trilinos/trilinosAztecOOSolver.py:23-39 | Every defined criterion gives scale 1 and an AztecOO token. There is no `default` adapter. |
| `AztecOOSolver.LegacyIsInitial` | fipy/solvers/trilinos/trilinosAztecOOSolver.py:23-24 | `legacy` gives exactly what `initial` gives: (1, AZ_r0). |
| `AztecOOSolver.TokenRoundTrip` | fipy/solvers/trilinos/trilinosAztecOOSolver.py:26-39 | The token table and its inverse agree in both directions: unscaled, RHS, matrix, initial and solution map to AZ_noscaled, AZ_rhs, AZ_Anorm, AZ_r0 and AZ_sol. |
| `AztecOOSolver.TokensInjective` | fipy/solvers/trilinos/trilinosAztecOOSolver.py:23-39 | Two criteria share a token only when they are `legacy` and `initial`. |
| `AztecOOSolver.Solve` | fipy/solvers/trilinos/trilinosAztecOOSolver.py:42-86 | AZ_conv holds the adapter's token and AZ_solver the method. AZ_precond is AZ_none exactly when there is no preconditioner; otherwise the preconditioner is applied. No option is set after Iterate, which gets the iteration limit, the tolerance and the scale. `Prec` is deleted exactly when a preconditioner holds one. The record takes int() of AZ_why and AZ_its, the adapter's scale and AZ_r, with AZ_scaled_r, AZ_rec_r, the solve time and the Aztec version as details. Iterate's return value is returned. A missing adapter is the error. |
| `AztecOOSolver.GmresLegacyUsesR0` | fipy/solvers/trilinos/linearGMRESSolver.py:21 | GMRES's default `legacy` criterion sets AZ_conv to AZ_r0. |
| `PysparseSolver.Adapt` | fipy/solvers/pysparse/pysparseSolver.py:81-98 | The token is always None, and `legacy` gives 1. For unscaled, RHS, matrix and initial, factor × legacy norm is 1, the RHS norm, the matrix norm and the initial residual. A zero legacy norm is ZeroDivisionError. There is no `default` or `solution` adapter. |
| `PysparseSolver.Solve_` | fipy/solvers/pysparse/pysparseSolver.py:18-64 | The backend gets tolerance × scale, the iteration limit, b and x. With no preconditioner P is None and A is the matrix; otherwise both come from `_applyToMatrix`. The residual is relres × legacy norm, the scale is recorded, and the error is the adapter's. The solution is written into x in place, so it has x's length. |
| `PysparseSolver.StoppingTestMatchesCriterion` | fipy/solvers/pysparse/pysparseSolver.py:34-62 | With a positive legacy norm, pysparse's test relres <= tolerance × scale holds exactly when the reported residual <= tolerance × the criterion's reference norm. |
| `PysparseSolver.Solve` | fipy/solvers/pysparse/pysparseSolver.py:100-120 | More than one process raises the fixed message. A zero, non-square or wrongly sized matrix raises SolutionVariableNumberError. Otherwise it fails exactly when `_solve_` fails, with `_solve_`'s error. On success the variable is written back with its own length; each written-back value × the unit factor is the solution value, and the values are unchanged when the factor is 1. |
| `PyAMGXSolver.Configure` | fipy/solvers/pyamgx/pyAMGXSolver.py:39-44 | Sets max_iters, and preconditioner and smoother only when given. Keyword arguments override all three. Every other key is kept, and no other key is added. |
| `PyAMGXSolver.Construct` | fipy/solvers/pyamgx/pyAMGXSolver.py:37-44 | The configuration writes go to the `"solver"` section the class dictionary shares; every other section is untouched. |
| `PyAMGXSolver.PreconditionerLeaks` | fipy/solvers/pyamgx/pyAMGXSolver.py:37-41 | A solver built without a preconditioner from the same class dictionary still carries the previous construction's preconditioner. |
| `PyAMGXSolver.Adapt` | fipy/solvers/pyamgx/pyAMGXSolver.py:74-87 | `default` and `initial` give (1, RELATIVE_INI_CORE). The token is ABSOLUTE exactly for unscaled, RHS and matrix, with scale 1, RHS norm and matrix norm. There is no `legacy` or `solution` adapter, matching the documented criteria. |
| `PyAMGXSolver.DefaultIsInitial` | fipy/solvers/pyamgx/pyAMGXSolver.py:74-75 | `default` gives exactly what `initial` gives. |
| `PyAMGXSolver.Solve_` | fipy/solvers/pyamgx/pyAMGXSolver.py:89-119 | The shared solver section gains tolerance = tolerance × factor and convergence = the token's name; other keys and sections are kept. The reported residual × factor is AMGX's raw residual. The solution AMGX downloads is written into `x` in place whenever an adapter exists, so `x` and the returned solution keep x's length. A zero factor raises ZeroDivisionError after the section writes and the download. An adapter error leaves the store and `x` untouched. |
| `PyAMGXSolver.ToleranceDoesNotReachSolve` | fipy/solvers/pyamgx/pyAMGXSolver.py:99-103 | The convergence record and solution are the same whatever the tolerance, because the configured solver is not the one that solves. |
| `PyAMGXSolver.ReportedResidualMatchesTest` | fipy/solvers/pyamgx/pyAMGXSolver.py:94-112 | With a positive factor, raw residual <= tolerance × factor holds exactly when reported residual <= tolerance. With factor 1 the reported residual is the raw one. |
| `PyAMGXSolver.Solve` | fipy/solvers/pyamgx/pyAMGXSolver.py:121-125 | More than one process raises the fixed message and touches nothing; otherwise it is `_solve_`. A solution has the variable's length. |
| `StackedIDs.StackAt` | fipy/solvers/trilinos/trilinosSolver.py:106-109 | Entry j of component k of the stacked IDs is ids[j] + k × numberOfCells. |
| `StackedIDs.StackOfAllCells` | fipy/solvers/trilinos/trilinosSolver.py:106-109 | Stacking all cells 0..N gives every position 0..dim×N of the flattened variable, in order. |
| `StackedIDs.ToInt32` | fipy/solvers/trilinos/trilinosSolver.py:108-110 | The result is a 32-bit integer congruent to the input mod 2^32, and equal to it when the input fits. |
| `StackedIDs.StackInRange` | fipy/solvers/trilinos/trilinosSolver.py:106-109 | Stacking cell IDs in [0, N) gives positions in [0, dim×N). |
| `StackedIDs.StackFitsInt32` | fipy/solvers/trilinos/trilinosSolver.py:106-110 | The int32 cast never changes stacked cell IDs of a variable with at most 2^31 values. |
| `StackedIDs.Select` | fipy/solvers/trilinos/trilinosSolver.py:96-97 | Indexing the last axis succeeds exactly when every ID is a valid numpy index (negative ones counting from the end); otherwise it is IndexError. |
| `StackedIDs.PickAt` | fipy/solvers/trilinos/trilinosSolver.py:112-113 | Entry j of component k of the selection is the variable's value of component k at cell ids[j]. |
| `StackedIDs.PickAllCells` | fipy/solvers/trilinos/trilinosSolver.py:112-113 | Selecting all cells in order gives back the values unchanged. |
| `TrilinosSolver.Dim` | fipy/solvers/trilinos/trilinosSolver.py:102-105 | A coupled variable stacks len(vars) components; otherwise it stacks the product of its element shape. |
| `TrilinosSolver.Product` | fipy/solvers/trilinos/trilinosSolver.py:105 | The product of an element shape is 1 for a scalar, and 0 exactly when some extent is 0. |
| `TrilinosSolver.Construct` | fipy/solvers/trilinos/trilinosSolver.py:50-56 | The abstract class raises. Any subclass starts dirty with nothing stored or cached, in a valid state. |
| `TrilinosSolver.Reset` | fipy/solvers/trilinos/trilinosSolver.py:66-69 | Marks the solver dirty and changes nothing else. |
| `TrilinosSolver.StoreMatrix` | fipy/solvers/trilinos/trilinosSolver.py:58-64 | Overwrites var and RHSvector. The first call stores the wrapper; later calls keep the same wrapper and swap only its inner matrix. The dirty flag and cache do not change. |
| `TrilinosSolver.Build` | fipy/solvers/trilinos/trilinosSolver.py:73-82 | The cache holds the Trilinos matrix of the wrapper, with vectors on its domain, range and column maps. |
| `TrilinosSolver.RhsValues` | fipy/solvers/trilinos/trilinosSolver.py:115-119 | A coupled RHS is indexed by the non-overlapping cell IDs. An array RHS of another size fails to reshape; otherwise it is selected like the variable. |
| `TrilinosSolver.Refresh` | fipy/solvers/trilinos/trilinosSolver.py:84-127 | dim 0 raises before indexing, and an invalid cell index raises IndexError. Otherwise the matrix is refilled. The vectors receive the variable's non-overlapping values, the RHS values and all variable values at the int32 stacked IDs, written in place so each vector keeps its length. Maps never change. |
| `TrilinosSolver.SerialRefresh` | fipy/solvers/trilinos/trilinosSolver.py:84-127 | On a mesh held whole by one process, the refresh writes the flattened variable and RHS to positions 0..dim×N. |
| `TrilinosSolver.GlobalMatrixAndVectors` | fipy/solvers/trilinos/trilinosSolver.py:71-131 | The cache is built only when absent and keeps its maps afterwards. A clean cache is returned untouched. A clean solver with no cache builds one and returns its unfilled vectors without a refresh. A dirty one is refreshed, and success clears the flag. A failure keeps the flag and any freshly built cache. No stored matrix raises AttributeError. |
| `TrilinosSolver.Delete` | fipy/solvers/trilinos/trilinosSolver.py:133-135 | With no matrix it raises AttributeError for `matrix` and changes nothing. Otherwise the wrapper is replaced by its flushed self, and then the cache is removed. Variable, RHS and dirty flag are kept. It succeeds exactly when a cache exists; without one the flush still happens and AttributeError names `globalVectors`. |
| `TrilinosSolver.DeleteThenAccessRebuilds` | fipy/solvers/trilinos/trilinosSolver.py:73-135 | After a delete, the next access rebuilds the cache with the maps of the flushed wrapper. A dirty solver refreshes the new vectors from what is stored; a clean one returns them unfilled. |
| `TrilinosSolver.StoreWithoutResetKeepsCache` | fipy/solvers/trilinos/trilinosSolver.py:58-84 | Storing a new matrix without `_reset` leaves a clean solver returning its old cache. |
| `TrilinosSolver.ResetThenAccessRefreshes` | fipy/solvers/trilinos/trilinosSolver.py:66-129 | After `_reset`, an access refreshes the existing cache from what is stored. |
| `TrilinosSolver.MapsAgreeOnWellFormed` | fipy/solvers/trilinos/trilinosSolver.py:145-148 | On a well-formed cache, the guard fails exactly when the range and domain maps differ. |
| `TrilinosSolver.Solve` | fipy/solvers/trilinos/trilinosSolver.py:137-159 | Access errors pass through. When the range map differs from the domain map or from the solution vector's map, SolutionVariableNumberError is raised. After the guard passes, an error from the subclass's `_solve_` passes through with the fetched cache kept and the variable untouched. After a successful `_solve_`, a reshape failure occurs exactly when the overlapping vector's length differs from the variable's. The solution and the import are written into their vectors in place. On success the variable holds the imported overlapping values, with its own length, and the cache holds the solved and imported vectors. |
| `TrilinosSolver.CalcResidualVector` | fipy/solvers/trilinos/trilinosSolver.py:170-182 | With a residualFn it returns that function's result on var, matrix and RHSvector and changes nothing; with nothing stored that raises AttributeError for `var`. Otherwise it accesses the cache, passes on the access error, and returns a vector on the column map. |
| `TrilinosSolver.CalcResidual` | fipy/solvers/trilinos/trilinosSolver.py:194-200 | With nothing stored it raises AttributeError for `var`, read before anything else, and changes nothing. With a residualFn it returns that function's result and changes nothing. Otherwise it passes on the access error, or returns the communicator's Norm2 of the non-overlapping residual. |
| `TrilinosSolver.ResidualsShareAccess` | fipy/solvers/trilinos/trilinosSolver.py:170-200 | With a residualFn, the residual and the residual vector are the same call. Without one, both leave the solver in the same state, and once a variable is stored both fail together with the same error. |

## Left out

- Foreign solves and handles are left out. These are AztecOO `Iterate` and `GetAztecStatus`, pysparse `solveFnc` and `_applyToMatrix`, the AMGX upload, solve and download, Epetra `ReplaceMyValues` and `Import`, `_getTrilinosMatrix`, `asTrilinosMeshMatrix` and the wrapper's `flush`. They are parameters of the functions that call them, the Trilinos ones as fields of the `Backend` record; only what they are given and how their results are used is modelled. A routine that writes into an array or Epetra vector writes in place, so the array keeps its length: positions it does not reach keep their values.
- The AMGX resource lifecycle (`Config`, `Resources`, `Vector`, `Matrix` and `Solver` create and destroy, `__exit__`, `_storeMatrix`'s upload and setup) is left out because it only manages GPU handles.
- Norms and residuals (`L2norm`, `norm('inf')`, `Norm2`, the residual vector) are abstract reals, and floats are exact reals. IEEE rounding, infinities and NaN are not modelled. Python float division by zero is modelled as ZeroDivisionError; a numpy float64 operand would give inf instead, and which one the source meets depends on the norm's type.
- The base `Solver` class is not part of this model. That covers `_adaptTolerance`'s dispatch, `scale_tolerance`, `_legacyNorm`, `rhsNorm` and `matrixNorm`, and `convergence.warn()`. A criterion a backend defines no adapter for is an error, not a guess at the base behaviour. AztecOO records the tolerance and scale handed to `scale_tolerance` instead of their product.
- `_calcRHSNorm` in the Trilinos facade is left out: it reads an attribute the file never sets.
- PyAMGXSolver.Solve: when `_solve_` raises, the variable is left as it was. Whether the download into `x` reaches the variable through a `ravel()` view depends on numpy's memory layout, which is not modelled.
- PyAMGXSolver.Solve_: `solveFnc` stands for `self.solver`, an attribute the AMGX file never sets (`__init__` at pyAMGXSolver.py:37-53 creates `cfg`, `resources` and the GPU vectors and matrix, but no solver). As written, `_storeMatrix` and `_solve_` would raise AttributeError unless the base `Solver`, which is not part of this model, provides it. The model assumes such a solver exists and takes its reply as a parameter.
- The numpy empty-index workaround (trilinosSolver.py:96-99) is left out. Selection is always along the last axis; the two forms agree when the cell ID list is empty.
- A coupled right-hand side's indexing is left to a parameter, because `_CoupledCellVariable` is not part of this model.
- TrilinosSolver.Refresh: in-place writes made before a later exception in the same refresh are not kept, because all checks are made before the writes. The source writes the variable's vector before it can fail on the right-hand side.
- PysparseSolver.Solve: requires a non-zero unit factor. The source divides the numpy solution by it, and a zero factor would give inf or NaN, which reals cannot represent. Units are otherwise not modelled.
- PyAMGXSolver.Construct: requires the class dictionary's `"solver"` section to exist. The source raises KeyError without one.
- Gridlike3D: the plane bounds are written `a * (nx * ny)` where the source has `a * nx * ny`; these are the same integer.
- Grid `__init__`, pickling and `_isOrthogonal` are left out, and so are the skewed grid (`fipy/meshes/skewedGrid2D.py`, random perturbation of vertices), the thin solver subclasses that only set constants, and the example and setup scripts.

=== FILE: aztecoo.dfy ===
/**
 * `TrilinosAztecOOSolver`: the tolerance adapters of the AztecOO backend
 * and the option settings, preconditioner handling and convergence record
 * of its `_solve_`.
 */
module AztecOOSolver {
  import opened Results
  import opened SolverBase

  /** The AztecOO `AZ_conv` settings: `AZ_noscaled`, `AZ_rhs`, `AZ_Anorm`, `AZ_r0` and `AZ_sol`. */
  datatype Token = AzNoscaled | AzRhs | AzAnorm | AzR0 | AzSol

  /**
   * The `_adapt<Criterion>Tolerance` methods of the class: every scale is 1
   * and the criterion is handed to AztecOO as its own `AZ_conv` token;
   * `legacy` defers to `initial`.  The class defines no `default` adapter.
   */
  function Adapt(c: Criterion): (r: Result<Adaptation<Token>, SolverError>)
    ensures r.Ok? <==> c != Default
    ensures r.Ok? ==> r.value.scale == 1.0 && r.value.token.Some?
    ensures r.Err? ==> r.error == NoAdapter(c)
    decreases if c == Legacy then 1 else 0
  {
    match c
    case Legacy => Adapt(Initial)
    case Unscaled => Ok(Adaptation(1.0, Some(AzNoscaled)))
    case RHS => Ok(Adaptation(1.0, Some(AzRhs)))
    case Matrix => Ok(Adaptation(1.0, Some(AzAnorm)))
    case Initial => Ok(Adaptation(1.0, Some(AzR0)))
    case Solution => Ok(Adaptation(1.0, Some(AzSol)))
    case Default => Err(NoAdapter(Default))
  }

  /** The criterion an AztecOO token stands for: the inverse of the adapter table. */
  function CriterionOf(t: Token): Criterion
  {
    match t
    case AzNoscaled => Unscaled
    case AzRhs => RHS
    case AzAnorm => Matrix
    case AzR0 => Initial
    case AzSol => Solution
  }

  /** `legacy` yields exactly what `initial` yields. */
  lemma LegacyIsInitial()
    ensures Adapt(Legacy) == Adapt(Initial) == Ok(Adaptation(1.0, Some(AzR0)))
  {
  }

  /**
   * The table and its inverse agree both ways: each criterion other than
   * `default` and `legacy` is recovered from its token, and each AztecOO
   * token is the token of the criterion it stands for.
   */
  lemma TokenRoundTrip(c: Criterion, t: Token)
    ensures c != Default && c != Legacy ==> CriterionOf(Adapt(c).value.token.value) == c
    ensures Adapt(CriterionOf(t)) == Ok(Adaptation(1.0, Some(t)))
  {
  }

  /** Two criteria share a token only when they are `legacy` and `initial`. */
  lemma {:induction false} TokensInjective(c1: Criterion, c2: Criterion)
    requires Adapt(c1).Ok? && Adapt(c2).Ok?
    requires Adapt(c1).value.token == Adapt(c2).value.token
    ensures c1 == c2 || (c1 in {Legacy, Initial} && c2 in {Legacy, Initial})
  {
    var t := Adapt(c1).value.token.value;
    TokenRoundTrip(if c1 == Legacy then Initial else c1, t);
    TokenRoundTrip(if c2 == Legacy then Initial else c2, t);
  }

  /** The Krylov method `self.solver` selects. */
  datatype Method = AzCg | AzGmres | OtherMethod(code: int)

  /** AztecOO options the solve sets. */
  datatype AzOption = SolverOption | OutputOption | ConvOption | PrecondOption

  /** Values given to those options; `AzNone` is `AZ_none`. */
  datatype AzValue = MethodValue(m: Method) | AzNone | ConvValue(t: Token)

  /**
   * A preconditioner object; `hasPrec` says whether it holds a `Prec`
   * attribute once `_applyToSolver` has run.
   */
  datatype Preconditioner = Preconditioner(name: string, hasPrec: bool)

  /** The calls `_solve_` makes on the AztecOO object and on the preconditioner, in order. */
  datatype Event =
    | SetOption(option: AzOption, value: AzValue)
    | ApplyToSolver(p: Preconditioner)
    | Iterate(maxIterations: int, tolerance: real, toleranceScale: real)
    | DeletePrec

  /** The solver's settings. */
  datatype Config = Config(krylov: Method, tolerance: real, criterion: Criterion,
                           iterations: int, preconditioner: Option<Preconditioner>)

  /** `GetAztecStatus()` after `Iterate`, and `Iterate`'s own return value. */
  datatype Status = Status(why: real, its: real, r: real, scaledR: real, recR: real,
                           solveTime: real, version: real, output: int)

  /** What `_solve_` leaves behind. */
  datatype Outcome = Outcome(events: seq<Event>, preconditioner: Option<Preconditioner>,
                             convergence: Convergence, output: int)

  /** The value an option holds after `events`: the last setting wins. */
  function OptionValue(events: seq<Event>, option: AzOption): Option<AzValue>
  {
    if |events| == 0 then None
    else
      var last := events[|events| - 1];
      if last.SetOption? && last.option == option then Some(last.value)
      else OptionValue(events[..|events| - 1], option)
  }

  /** No option is set once the iteration has started. */
  predicate OptionsBeforeIterate(events: seq<Event>)
  {
    forall i, j :: 0 <= i < j < |events| && events[i].Iterate? ==> !events[j].SetOption?
  }

  /**
   * `_solve_`: sets the method, silences output, sets `AZ_conv` to the
   * adapter's token, disables preconditioning or applies the
   * preconditioner, iterates, drops the preconditioner's `Prec`, and records
   * the AztecOO status.  The status is the outcome of the foreign `Iterate`.
   */
  function Solve(cfg: Config, status: Status): (r: Result<Outcome, SolverError>)
    ensures r.Ok? <==> Adapt(cfg.criterion).Ok?
    ensures r.Err? ==> r.error == NoAdapter(cfg.criterion)
    ensures r.Ok? ==> OptionValue(r.value.events, ConvOption) == Some(ConvValue(Adapt(cfg.criterion).value.token.value))
    ensures r.Ok? ==> OptionValue(r.value.events, SolverOption) == Some(MethodValue(cfg.krylov))
    ensures r.Ok? ==> (OptionValue(r.value.events, PrecondOption) == Some(AzNone) <==> cfg.preconditioner.None?)
    ensures r.Ok? && cfg.preconditioner.Some? ==> ApplyToSolver(cfg.preconditioner.value) in r.value.events
    ensures r.Ok? && cfg.preconditioner.None? ==> forall e :: e in r.value.events ==> !e.ApplyToSolver?
    ensures r.Ok? ==> (DeletePrec in r.value.events <==> cfg.preconditioner.Some? && cfg.preconditioner.value.hasPrec)
    ensures r.Ok? ==> r.value.preconditioner.Some? == cfg.preconditioner.Some?
                      && (r.value.preconditioner.Some? ==> !r.value.preconditioner.value.hasPrec)
    ensures r.Ok? ==> Iterate(cfg.iterations, cfg.tolerance, 1.0) in r.value.events && OptionsBeforeIterate(r.value.events)
    ensures r.Ok? ==> r.value.convergence.code == PyInt(status.why)
                      && r.value.convergence.iterations == PyInt(status.its)
                      && r.value.convergence.toleranceScale == Some(Adapt(cfg.criterion).value.scale)
                      && r.value.convergence.residual == status.r
                      && r.value.convergence.suite == "trilinos"
    ensures r.Ok? ==> r.value.output == status.output
                      && r.value.convergence.details
                         == map["scaled_residual" := status.scaledR, "convergence_residual" := status.recR,
                                "solve_time" := status.solveTime, "Aztec_version" := status.version]
  {
    match Adapt(cfg.criterion)
    case Err(e) => Err(e)
    case Ok(a) =>
      var setup := [SetOption(SolverOption, MethodValue(cfg.krylov)), SetOption(OutputOption, AzNone),
                    SetOption(ConvOption, ConvValue(a.token.value))];
      var precondition := match cfg.preconditioner
                          case None => [SetOption(PrecondOption, AzNone)]
                          case Some(p) => [ApplyToSolver(p)];
      var iterate := [Iterate(cfg.iterations, cfg.tolerance, a.scale)];
      var cleanup := if cfg.preconditioner.Some? && cfg.preconditioner.value.hasPrec then [DeletePrec] else [];
      var events := setup + precondition + iterate + cleanup;
      var after := match cfg.preconditioner
                   case None => None
                   case Some(p) => Some(p.(hasPrec := false));
      var conv := Convergence("trilinos", PyInt(status.why), PyInt(status.its), Some(a.scale), status.r,
                              map["scaled_residual" := status.scaledR, "convergence_residual" := status.recR,
                                  "solve_time" := status.solveTime, "Aztec_version" := status.version]);
      SolveFacts(cfg, a, setup, precondition, iterate, cleanup);
      Ok(Outcome(events, after, conv, status.output))
  }

  /** The option and ordering facts about the event list `Solve` builds. */
  lemma SolveFacts(cfg: Config, a: Adaptation<Token>, setup: seq<Event>, precondition: seq<Event>,
                   iterate: seq<Event>, cleanup: seq<Event>)
    requires a.token.Some?
    requires setup == [SetOption(SolverOption, MethodValue(cfg.krylov)), SetOption(OutputOption, AzNone),
                       SetOption(ConvOption, ConvValue(a.token.value))]
    requires precondition == match cfg.preconditioner
                             case None => [SetOption(PrecondOption, AzNone)]
                             case Some(p) => [ApplyToSolver(p)]
    requires iterate == [Iterate(cfg.iterations, cfg.tolerance, a.scale)]
    requires cleanup == if cfg.preconditioner.Some? && cfg.preconditioner.value.hasPrec then [DeletePrec] else []
    ensures var events := setup + precondition + iterate + cleanup;
      && OptionValue(events, ConvOption) == Some(ConvValue(a.token.value))
      && OptionValue(events, SolverOption) == Some(MethodValue(cfg.krylov))
      && (OptionValue(events, PrecondOption) == Some(AzNone) <==> cfg.preconditioner.None?)
      && (cfg.preconditioner.Some? ==> ApplyToSolver(cfg.preconditioner.value) in events)
      && (cfg.preconditioner.None? ==> forall e :: e in events ==> !e.ApplyToSolver?)
      && (DeletePrec in events <==> cfg.preconditioner.Some? && cfg.preconditioner.value.hasPrec)
      && OptionsBeforeIterate(events)
  {
    var body := setup + precondition;
    OptionValueSkips(body, iterate + cleanup, ConvOption);
    OptionValueSkips(body, iterate + cleanup, SolverOption);
    OptionValueSkips(body, iterate + cleanup, PrecondOption);
    assert setup + precondition + iterate + cleanup == body + (iterate + cleanup);
    var s0 := [SetOption(SolverOption, MethodValue(cfg.krylov))];
    var s1 := s0 + [SetOption(OutputOption, AzNone)];
    assert setup == s1 + [SetOption(ConvOption, ConvValue(a.token.value))];
    OptionValueSet([], SetOption(SolverOption, MethodValue(cfg.krylov)));
    assert [] + s0 == s0;
    OptionValueSet(s0, SetOption(OutputOption, AzNone));
    OptionValueSet(s1, SetOption(ConvOption, ConvValue(a.token.value)));
    assert body == setup + [precondition[0]];
    OptionValueSet(setup, precondition[0]);
  }

  /** Appending one event sets at most the option it names. */
  lemma OptionValueSet(before: seq<Event>, e: Event)
    ensures forall o :: OptionValue(before + [e], o)
                       == if e.SetOption? && e.option == o then Some(e.value) else OptionValue(before, o)
  {
    assert (before + [e])[..|before|] == before;
  }

  /** Events that set no option leave every option's value unchanged. */
  lemma {:induction false} OptionValueSkips(before: seq<Event>, after: seq<Event>, option: AzOption)
    requires forall e :: e in after ==> !e.SetOption?
    ensures OptionValue(before + after, option) == OptionValue(before, option)
    decreases |after|
  {
    if |after| > 0 {
      var all := before + after;
      assert all[..|all| - 1] == before + after[..|after| - 1];
      assert all[|all| - 1] == after[|after| - 1];
      OptionValueSkips(before, after[..|after| - 1], option);
    } else {
      assert before + after == before;
    }
  }

  /** The GMRES solver's default criterion, `legacy`, sets `AZ_conv` to `AZ_r0`. */
  lemma GmresLegacyUsesR0(cfg: Config, status: Status)
    requires cfg.krylov == AzGmres && cfg.criterion == Legacy
    ensures Solve(cfg, status).Ok?
    ensures OptionValue(Solve(cfg, status).value.events, ConvOption) == Some(ConvValue(AzR0))
  {
    LegacyIsInitial();
  }
}

=== FILE: gridlike.dfy ===
/**
 * The `repr_` helper shared by the structured grids: it renders the grid's
 * constructor arguments as `ClassName(dx=..., nx=..., ...)`.
 */
module Gridlike {
  import opened Results

  /** A constructor argument as `str()` renders it; `NoneArg` is Python's `None`. */
  datatype ArgValue = NoneArg | Arg(text: string)

  /** A lookup of an argument name that is not among the grid's arguments. */
  datatype ReprError = KeyError(key: string)

  /** `str(value)` of an argument. */
  function Str(v: ArgValue): string
  {
    match v
    case NoneArg => "None"
    case Arg(t) => t
  }

  /** Every spacing name and every count name of `dns` is an argument. */
  predicate AllKeys(args: map<string, ArgValue>, dns: seq<(string, string)>)
  {
    forall i :: 0 <= i < |dns| ==> dns[i].0 in args && dns[i].1 in args
  }

  /**
   * `key` is the name whose lookup fails first for the pair `dn`: the
   * spacing name, or else the count name.
   */
  predicate MissingAt(args: map<string, ArgValue>, dn: (string, string), key: string)
  {
    if dn.0 !in args then key == dn.0 else dn.1 !in args && key == dn.1
  }

  /** How many of the count names of `dns` hold something other than `None`. */
  function GivenCounts(args: map<string, ArgValue>, dns: seq<(string, string)>): nat
    requires AllKeys(args, dns)
  {
    if |dns| == 0 then 0
    else (if args[dns[0].1] == NoneArg then 0 else 1) + GivenCounts(args, dns[1..])
  }

  /** The `name=value` part of the rendering. */
  function Part(name: string, v: ArgValue): string
  {
    name + "=" + Str(v)
  }

  /** The rendering of one axis: `d=...`, then `, n=...` unless the count is None. */
  function AxisText(args: map<string, ArgValue>, dn: (string, string)): string
    requires dn.0 in args && dn.1 in args
  {
    dn.0 + "=" + Str(args[dn.0]) + (if args[dn.1] == NoneArg then "" else ", " + dn.1 + "=" + Str(args[dn.1]))
  }

  /** The axes' renderings, in order, separated by `, `. */
  function Rendered(args: map<string, ArgValue>, dns: seq<(string, string)>): string
    requires AllKeys(args, dns)
    decreases |dns|
  {
    if |dns| == 0 then ""
    else if |dns| == 1 then AxisText(args, dns[0])
    else
      AllKeysTail(args, dns);
      AxisText(args, dns[0]) + ", " + Rendered(args, dns[1..])
  }

  lemma AllKeysTail(args: map<string, ArgValue>, dns: seq<(string, string)>)
    requires |dns| > 0 && AllKeys(args, dns)
    ensures AllKeys(args, dns[1..])
  {
    assert forall i :: 0 <= i < |dns[1..]| ==> dns[1..][i] == dns[i + 1];
  }

  /** The parts of one axis join to that axis's rendering. */
  lemma AxisPartsJoin(args: map<string, ArgValue>, d: string, n: string)
    requires d in args && n in args
    ensures Join([Part(d, args[d])] + (if args[n] == NoneArg then [] else [Part(n, args[n])]), ", ")
         == AxisText(args, (d, n))
  {
    if args[n] != NoneArg {
      var parts := [Part(d, args[d]), Part(n, args[n])];
      assert [Part(d, args[d])] + [Part(n, args[n])] == parts;
      assert parts[1..] == [Part(n, args[n])];
    }
  }

  /**
   * The list `dnstr` built by the loop of `repr_`: for each pair (d, n), the
   * part for d, then the part for n unless that count is None.  A name that
   * is not an argument raises KeyError at the first such lookup.
   */
  function ReprParts(args: map<string, ArgValue>, dns: seq<(string, string)>): (r: Result<seq<string>, ReprError>)
    ensures r.Ok? <==> AllKeys(args, dns)
    ensures r.Ok? ==> |r.value| == |dns| + GivenCounts(args, dns)
    ensures r.Ok? ==> Join(r.value, ", ") == Rendered(args, dns)
    ensures r.Err? ==> exists i :: 0 <= i < |dns| && AllKeys(args, dns[..i]) && MissingAt(args, dns[i], r.error.key)
    decreases |dns|
  {
    if |dns| == 0 then Ok([])
    else
      var d, n := dns[0].0, dns[0].1;
      if d !in args then
        assert AllKeys(args, dns[..0]);
        Err(KeyError(d))
      else if n !in args then
        assert AllKeys(args, dns[..0]);
        Err(KeyError(n))
      else
        var head := [Part(d, args[d])] + (if args[n] == NoneArg then [] else [Part(n, args[n])]);
        match ReprParts(args, dns[1..])
        case Err(e) =>
          assert !AllKeys(args, dns) by {
            assert !AllKeys(args, dns[1..]);
          }
          ghost var i :| 0 <= i < |dns[1..]| && AllKeys(args, dns[1..][..i]) && MissingAt(args, dns[1..][i], e.key);
          assert dns[1..][..i] == dns[1..i + 1];
          assert AllKeys(args, dns[..i + 1]);
          Err(e)
        case Ok(rest) =>
          assert AllKeys(args, dns) by {
            forall j | 0 <= j < |dns|
              ensures dns[j].0 in args && dns[j].1 in args
            {
              if j > 0 { assert dns[j] == dns[1..][j - 1]; }
            }
          }
          AxisPartsJoin(args, d, n);
          if |dns| == 1 then
            assert head + rest == head;
            Ok(head + rest)
          else
            AllKeysTail(args, dns);
            JoinAppend(head, rest, ", ");
            Ok(head + rest)
  }

  /** Python's `sep.join(parts)`. */
  function Join(parts: seq<string>, sep: string): string
  {
    if |parts| == 0 then ""
    else if |parts| == 1 then parts[0]
    else parts[0] + sep + Join(parts[1..], sep)
  }

  /** `_Gridlike.repr_`: the class name followed by the comma-joined parts in parentheses. */
  function Repr(className: string, args: map<string, ArgValue>, dns: seq<(string, string)>): (r: Result<string, ReprError>)
    ensures r.Ok? <==> AllKeys(args, dns)
    ensures r.Ok? ==> r.value == className + "(" + Rendered(args, dns) + ")"
    ensures r.Ok? ==> className + "(" <= r.value && |r.value| > 0 && r.value[|r.value| - 1] == ')'
    ensures r.Ok? && |dns| > 0 ==> className + "(" + dns[0].0 + "=" <= r.value
    ensures r.Err? ==> ReprParts(args, dns) == Err(r.error)
  {
    match ReprParts(args, dns)
    case Err(e) => Err(e)
    case Ok(parts) =>
      var s := className + "(" + Join(parts, ", ") + ")";
      assert s == (className + "(") + (Join(parts, ", ") + ")");
      JoinStartsWithFirst(parts, ", ");
      assert |dns| > 0 ==> |parts| > 0 && dns[0].0 + "=" <= parts[0];
      Ok(s)
  }

  /**
   * The parts for a concatenation of name pairs are the parts of each half,
   * in order.
   */
  lemma {:induction false} ReprPartsAppend(args: map<string, ArgValue>, dns1: seq<(string, string)>, dns2: seq<(string, string)>)
    requires AllKeys(args, dns1 + dns2)
    ensures AllKeys(args, dns1) && AllKeys(args, dns2)
    ensures ReprParts(args, dns1 + dns2).value == ReprParts(args, dns1).value + ReprParts(args, dns2).value
    decreases |dns1|
  {
    assert AllKeys(args, dns1) by {
      forall i | 0 <= i < |dns1| ensures dns1[i].0 in args && dns1[i].1 in args {
        assert dns1[i] == (dns1 + dns2)[i];
      }
    }
    assert AllKeys(args, dns2) by {
      forall i | 0 <= i < |dns2| ensures dns2[i].0 in args && dns2[i].1 in args {
        assert dns2[i] == (dns1 + dns2)[|dns1| + i];
      }
    }
    if |dns1| == 0 {
      assert dns1 + dns2 == dns2;
    } else {
      assert (dns1 + dns2)[1..] == dns1[1..] + dns2;
      assert (dns1 + dns2)[0] == dns1[0];
      ReprPartsAppend(args, dns1[1..], dns2);
    }
  }

  /**
   * The spacing is always rendered and the count only when it is given, so a
   * one-dimensional grid renders as `C(dx=...)` or `C(dx=..., nx=...)`.
   */
  lemma OneAxisRepr(className: string, args: map<string, ArgValue>)
    requires "dx" in args && "nx" in args
    ensures Repr(className, args, [("dx", "nx")])
         == Ok(className + "(dx=" + Str(args["dx"])
               + (if args["nx"] == NoneArg then "" else ", nx=" + Str(args["nx"])) + ")")
  {
    OneAxisJoin(args, "dx", "nx");
    var j := Join(ReprParts(args, [("dx", "nx")]).value, ", ");
    var opt := if args["nx"] == NoneArg then "" else ", nx=" + Str(args["nx"]);
    assert j == "dx" + "=" + Str(args["dx"]) + opt;
    Wrap(className, Str(args["dx"]), opt);
  }

  /** Re-bracketing of the rendered string of one axis. */
  lemma Wrap(className: string, v: string, rest: string)
    ensures className + "(" + ("dx" + "=" + v + rest) + ")" == className + "(dx=" + v + rest + ")"
  {
  }

  /**
   * A two-dimensional grid renders both spacings, each followed by its
   * count when the count is given.
   */
  lemma TwoAxisRepr(className: string, args: map<string, ArgValue>)
    requires "dx" in args && "nx" in args && "dy" in args && "ny" in args
    ensures Repr(className, args, [("dx", "nx"), ("dy", "ny")])
         == Ok(className + "(dx=" + Str(args["dx"])
               + (if args["nx"] == NoneArg then "" else ", nx=" + Str(args["nx"]))
               + ", dy=" + Str(args["dy"])
               + (if args["ny"] == NoneArg then "" else ", ny=" + Str(args["ny"])) + ")")
  {
    TwoAxisJoin(args);
    OneAxisJoin(args, "dx", "nx");
    OneAxisJoin(args, "dy", "ny");
    var ox := if args["nx"] == NoneArg then "" else ", nx=" + Str(args["nx"]);
    var oy := if args["ny"] == NoneArg then "" else ", ny=" + Str(args["ny"]);
    assert Join(ReprParts(args, [("dx", "nx"), ("dy", "ny")]).value, ", ")
        == ("dx" + "=" + Str(args["dx"]) + ox) + ", " + ("dy" + "=" + Str(args["dy"]) + oy);
    Wrap2(className, Str(args["dx"]), ox, Str(args["dy"]), oy);
  }

  /** The parts of two axes join to the join of each axis, separated once. */
  lemma TwoAxisJoin(args: map<string, ArgValue>)
    requires "dx" in args && "nx" in args && "dy" in args && "ny" in args
    ensures AllKeys(args, [("dx", "nx"), ("dy", "ny")])
    ensures Join(ReprParts(args, [("dx", "nx"), ("dy", "ny")]).value, ", ")
         == Join(ReprParts(args, [("dx", "nx")]).value, ", ") + ", " + Join(ReprParts(args, [("dy", "ny")]).value, ", ")
  {
    var dns := [("dx", "nx"), ("dy", "ny")];
    assert dns == [("dx", "nx")] + [("dy", "ny")];
    assert AllKeys(args, dns);
    ReprPartsAppend(args, [("dx", "nx")], [("dy", "ny")]);
    OneAxisJoin(args, "dx", "nx");
    OneAxisJoin(args, "dy", "ny");
    JoinAppend(ReprParts(args, [("dx", "nx")]).value, ReprParts(args, [("dy", "ny")]).value, ", ");
  }

  /** Re-bracketing of the rendered string of two axes. */
  lemma Wrap2(className: string, vx: string, ox: string, vy: string, oy: string)
    ensures className + "(" + (("dx" + "=" + vx + ox) + ", " + ("dy" + "=" + vy + oy)) + ")"
         == className + "(dx=" + vx + ox + ", dy=" + vy + oy + ")"
  {
  }

  /** Three axes render as the three axis renderings, separated by `, `. */
  lemma ThreeAxisRendered(args: map<string, ArgValue>)
    ensures AllKeys(args, [("dx", "nx"), ("dy", "ny"), ("dz", "nz")])
        <==> "dx" in args && "nx" in args && "dy" in args && "ny" in args && "dz" in args && "nz" in args
    ensures AllKeys(args, [("dx", "nx"), ("dy", "ny"), ("dz", "nz")]) ==>
      Rendered(args, [("dx", "nx"), ("dy", "ny"), ("dz", "nz")])
         == AxisText(args, ("dx", "nx")) + ", " + AxisText(args, ("dy", "ny")) + ", " + AxisText(args, ("dz", "nz"))
  {
    var dns := [("dx", "nx"), ("dy", "ny"), ("dz", "nz")];
    assert dns[0] == ("dx", "nx") && dns[1] == ("dy", "ny") && dns[2] == ("dz", "nz");
    assert dns[1..] == [("dy", "ny"), ("dz", "nz")];
    assert dns[1..][1..] == [("dz", "nz")];
  }

  /**
   * A three-dimensional grid renders its three spacings in order, each
   * followed by its count when the count is given.
   */
  lemma ThreeAxisReprWhenKeyed(className: string, args: map<string, ArgValue>)
    ensures "dx" in args && "nx" in args && "dy" in args && "ny" in args && "dz" in args && "nz" in args ==>
      Repr(className, args, [("dx", "nx"), ("dy", "ny"), ("dz", "nz")])
         == Ok(className + "(dx=" + Str(args["dx"])
               + (if args["nx"] == NoneArg then "" else ", nx=" + Str(args["nx"]))
               + ", dy=" + Str(args["dy"])
               + (if args["ny"] == NoneArg then "" else ", ny=" + Str(args["ny"]))
               + ", dz=" + Str(args["dz"])
               + (if args["nz"] == NoneArg then "" else ", nz=" + Str(args["nz"])) + ")")
  {
    if "dx" in args && "nx" in args && "dy" in args && "ny" in args && "dz" in args && "nz" in args {
      ThreeAxisRendered(args);
      var ox := if args["nx"] == NoneArg then "" else ", nx=" + Str(args["nx"]);
      var oy := if args["ny"] == NoneArg then "" else ", ny=" + Str(args["ny"]);
      var oz := if args["nz"] == NoneArg then "" else ", nz=" + Str(args["nz"]);
      assert AxisText(args, ("dx", "nx")) == "dx" + "=" + Str(args["dx"]) + ox;
      assert AxisText(args, ("dy", "ny")) == "dy" + "=" + Str(args["dy"]) + oy;
      assert AxisText(args, ("dz", "nz")) == "dz" + "=" + Str(args["dz"]) + oz;
      Wrap3(className, Str(args["dx"]), ox, Str(args["dy"]), oy, Str(args["dz"]), oz);
    }
  }

  /** Re-bracketing of the rendered string of three axes. */
  lemma Wrap3(className: string, vx: string, ox: string, vy: string, oy: string, vz: string, oz: string)
    ensures className + "(" + (("dx" + "=" + vx + ox) + ", " + ("dy" + "=" + vy + oy) + ", " + ("dz" + "=" + vz + oz)) + ")"
         == className + "(dx=" + vx + ox + ", dy=" + vy + oy + ", dz=" + vz + oz + ")"
  {
  }

  /** `OneAxisRepr` for callers that have not yet checked the keys. */
  lemma OneAxisReprWhenKeyed(className: string, args: map<string, ArgValue>)
    ensures "dx" in args && "nx" in args ==>
      Repr(className, args, [("dx", "nx")])
         == Ok(className + "(dx=" + Str(args["dx"])
               + (if args["nx"] == NoneArg then "" else ", nx=" + Str(args["nx"])) + ")")
  {
    if "dx" in args && "nx" in args {
      OneAxisRepr(className, args);
    }
  }

  /** `TwoAxisRepr` for callers that have not yet checked the keys. */
  lemma TwoAxisReprWhenKeyed(className: string, args: map<string, ArgValue>)
    ensures "dx" in args && "nx" in args && "dy" in args && "ny" in args ==>
      Repr(className, args, [("dx", "nx"), ("dy", "ny")])
         == Ok(className + "(dx=" + Str(args["dx"])
               + (if args["nx"] == NoneArg then "" else ", nx=" + Str(args["nx"]))
               + ", dy=" + Str(args["dy"])
               + (if args["ny"] == NoneArg then "" else ", ny=" + Str(args["ny"])) + ")")
  {
    if "dx" in args && "nx" in args && "dy" in args && "ny" in args {
      TwoAxisRepr(className, args);
    }
  }

  /** The parts of one axis join to `d=...` optionally followed by `, n=...`. */
  lemma OneAxisJoin(args: map<string, ArgValue>, d: string, n: string)
    requires d in args && n in args
    ensures AllKeys(args, [(d, n)])
    ensures |ReprParts(args, [(d, n)]).value| > 0
    ensures Join(ReprParts(args, [(d, n)]).value, ", ")
         == d + "=" + Str(args[d]) + (if args[n] == NoneArg then "" else ", " + n + "=" + Str(args[n]))
  {
    var dns := [(d, n)];
    assert AllKeys(args, dns);
    assert dns[1..] == [];
    var parts := ReprParts(args, dns).value;
    if args[n] != NoneArg {
      assert parts[1..] == [Part(n, args[n])];
    }
  }

  /** A join starts with the first part. */
  lemma JoinStartsWithFirst(parts: seq<string>, sep: string)
    ensures |parts| > 0 ==> parts[0] <= Join(parts, sep)
  {
  }

  /** Joining two non-empty lists puts one separator between their joins. */
  lemma {:induction false} JoinAppend(a: seq<string>, b: seq<string>, sep: string)
    requires |a| > 0 && |b| > 0
    ensures Join(a + b, sep) == Join(a, sep) + sep + Join(b, sep)
    decreases |a|
  {
    if |a| == 1 {
      assert (a + b)[1..] == b;
    } else {
      assert (a + b)[1..] == a[1..] + b;
      JoinAppend(a[1..], b, sep);
    }
  }
}

/** Cell and face IDs of a one-dimensional grid partitioned along x. */
module Gridlike1D {
  import opened Ranges
  import Gridlike
  import opened Results

  /**
   * One slab of a one-dimensional grid: `nx` cells and `numberOfFaces`
   * faces, starting at global cell `offset`, with `left` and `right` ghost
   * cells shared with the neighbouring slabs.
   */
  datatype Grid = Grid(nx: int, numberOfFaces: int, offset: int, left: int, right: int)

  /** The overlaps are genuine layer counts that fit inside the slab. */
  predicate ValidCells(g: Grid)
  {
    g.left >= 0 && g.right >= 0 && g.left + g.right <= g.nx
  }

  predicate ValidFaces(g: Grid)
  {
    g.left >= 0 && g.right >= 0 && g.left + g.right <= g.numberOfFaces
  }

  /** The slab's own cells, numbered in the global mesh. */
  function GlobalNonOverlappingCellIDs(g: Grid): (r: seq<int>)
    ensures forall x :: x in r <==> g.offset + g.left <= x < g.offset + g.nx - g.right
  {
    ArangeMembership(g.offset + g.left, g.offset + g.nx - g.right);
    Arange(g.offset + g.left, g.offset + g.nx - g.right)
  }

  /** The slab's cells including ghosts, numbered in the global mesh. */
  function GlobalOverlappingCellIDs(g: Grid): (r: seq<int>)
    ensures forall x :: x in r <==> g.offset <= x < g.offset + g.nx
  {
    ArangeMembership(g.offset, g.offset + g.nx);
    Arange(g.offset, g.offset + g.nx)
  }

  /** The slab's own cells, numbered within the slab. */
  function LocalNonOverlappingCellIDs(g: Grid): (r: seq<int>)
    ensures forall x :: x in r <==> g.left <= x < g.nx - g.right
  {
    ArangeMembership(g.left, g.nx - g.right);
    Arange(g.left, g.nx - g.right)
  }

  /** Every cell of the slab, numbered within the slab. */
  function LocalOverlappingCellIDs(g: Grid): (r: seq<int>)
    ensures forall x :: x in r <==> 0 <= x < g.nx
  {
    ArangeMembership(0, g.nx);
    Arange(0, g.nx)
  }

  function GlobalNonOverlappingFaceIDs(g: Grid): (r: seq<int>)
    ensures forall x :: x in r <==> g.offset + g.left <= x < g.offset + g.numberOfFaces - g.right
  {
    ArangeMembership(g.offset + g.left, g.offset + g.numberOfFaces - g.right);
    Arange(g.offset + g.left, g.offset + g.numberOfFaces - g.right)
  }

  function GlobalOverlappingFaceIDs(g: Grid): (r: seq<int>)
    ensures forall x :: x in r <==> g.offset <= x < g.offset + g.numberOfFaces
  {
    ArangeMembership(g.offset, g.offset + g.numberOfFaces);
    Arange(g.offset, g.offset + g.numberOfFaces)
  }

  function LocalNonOverlappingFaceIDs(g: Grid): (r: seq<int>)
    ensures forall x :: x in r <==> g.left <= x < g.numberOfFaces - g.right
  {
    ArangeMembership(g.left, g.numberOfFaces - g.right);
    Arange(g.left, g.numberOfFaces - g.right)
  }

  function LocalOverlappingFaceIDs(g: Grid): (r: seq<int>)
    ensures forall x :: x in r <==> 0 <= x < g.numberOfFaces
  {
    ArangeMembership(0, g.numberOfFaces);
    Arange(0, g.numberOfFaces)
  }

  /** `__repr__` of a one-dimensional grid. */
  function Repr(className: string, args: map<string, Gridlike.ArgValue>): (r: Result<string, Gridlike.ReprError>)
    ensures r.Ok? <==> "dx" in args && "nx" in args
    ensures r.Ok? ==> (r.value == className + "(dx=" + Gridlike.Str(args["dx"])
      + (if args["nx"] == Gridlike.NoneArg then "" else ", nx=" + Gridlike.Str(args["nx"])) + ")")
  {
    Gridlike.OneAxisReprWhenKeyed(className, args);
    Gridlike.Repr(className, args, [("dx", "nx")])
  }

  /** Global cell IDs are the local ones moved by the slab's offset. */
  lemma {:induction false} CellsGlobalIsShiftedLocal(g: Grid)
    ensures GlobalOverlappingCellIDs(g) == Shift(LocalOverlappingCellIDs(g), g.offset)
    ensures GlobalNonOverlappingCellIDs(g) == Shift(LocalNonOverlappingCellIDs(g), g.offset)
  {
    ArangeShift(0, g.nx, g.offset);
    ArangeShift(g.left, g.nx - g.right, g.offset);
  }

  /**
   * The slab's own cells are the overlapping cells with `left` cells cut
   * from the front and `right` from the back, so there are
   * `nx - left - right` of them, locally and globally.
   */
  lemma {:induction false} CellsNonOverlappingWithinOverlapping(g: Grid)
    requires ValidCells(g)
    ensures LocalNonOverlappingCellIDs(g) == LocalOverlappingCellIDs(g)[g.left .. g.nx - g.right]
    ensures GlobalNonOverlappingCellIDs(g) == GlobalOverlappingCellIDs(g)[g.left .. g.nx - g.right]
    ensures |LocalNonOverlappingCellIDs(g)| == |GlobalNonOverlappingCellIDs(g)| == g.nx - g.left - g.right
  {
    SlabRanges(g.nx, g.offset, g.left, g.right, 1);
    assert g.offset * 1 == g.offset && g.left * 1 == g.left && g.nx * 1 == g.nx;
    assert (g.offset + g.left) * 1 == g.offset + g.left;
    assert (g.offset + g.nx - g.right) * 1 == g.offset + g.nx - g.right;
    assert (g.nx - g.right) * 1 == g.nx - g.right;
    assert (g.offset + g.nx) * 1 == g.offset + g.nx;
  }

  /** Face IDs follow the cell formulas with `numberOfFaces` in place of `nx`. */
  lemma FacesAreCellsOfFaceCount(g: Grid)
    ensures GlobalNonOverlappingFaceIDs(g) == GlobalNonOverlappingCellIDs(g.(nx := g.numberOfFaces))
    ensures GlobalOverlappingFaceIDs(g) == GlobalOverlappingCellIDs(g.(nx := g.numberOfFaces))
    ensures LocalNonOverlappingFaceIDs(g) == LocalNonOverlappingCellIDs(g.(nx := g.numberOfFaces))
    ensures LocalOverlappingFaceIDs(g) == LocalOverlappingCellIDs(g.(nx := g.numberOfFaces))
  {
  }

  /** The face ranges keep the containment, counting and shifting of the cell ranges. */
  lemma {:induction false} FacesNonOverlappingWithinOverlapping(g: Grid)
    requires ValidFaces(g)
    ensures LocalNonOverlappingFaceIDs(g) == LocalOverlappingFaceIDs(g)[g.left .. g.numberOfFaces - g.right]
    ensures GlobalNonOverlappingFaceIDs(g) == GlobalOverlappingFaceIDs(g)[g.left .. g.numberOfFaces - g.right]
    ensures |GlobalNonOverlappingFaceIDs(g)| == g.numberOfFaces - g.left - g.right
    ensures GlobalNonOverlappingFaceIDs(g) == Shift(LocalNonOverlappingFaceIDs(g), g.offset)
    ensures GlobalOverlappingFaceIDs(g) == Shift(LocalOverlappingFaceIDs(g), g.offset)
  {
    var c := g.(nx := g.numberOfFaces);
    FacesAreCellsOfFaceCount(g);
    CellsNonOverlappingWithinOverlapping(c);
    CellsGlobalIsShiftedLocal(c);
  }
}

/** Cell IDs of a two-dimensional grid partitioned along y, in whole rows. */
module Gridlike2D {
  import opened Ranges
  import Gridlike
  import opened Results

  /**
   * One slab of a two-dimensional grid: `nx` by `ny` cells numbered row by
   * row, starting at global row `offset.1`, with `bottom` and `top` ghost
   * rows.
   */
  datatype Grid = Grid(nx: int, ny: int, offset: (int, int), bottom: int, top: int)

  predicate Valid(g: Grid)
  {
    g.nx >= 0 && g.bottom >= 0 && g.top >= 0 && g.bottom + g.top <= g.ny
  }

  function GlobalNonOverlappingCellIDs(g: Grid): (r: seq<int>)
    ensures forall x :: x in r <==> (g.offset.1 + g.bottom) * g.nx <= x < (g.offset.1 + g.ny - g.top) * g.nx
  {
    ArangeMembership((g.offset.1 + g.bottom) * g.nx, (g.offset.1 + g.ny - g.top) * g.nx);
    Arange((g.offset.1 + g.bottom) * g.nx, (g.offset.1 + g.ny - g.top) * g.nx)
  }

  function GlobalOverlappingCellIDs(g: Grid): (r: seq<int>)
    ensures forall x :: x in r <==> g.offset.1 * g.nx <= x < (g.offset.1 + g.ny) * g.nx
  {
    ArangeMembership(g.offset.1 * g.nx, (g.offset.1 + g.ny) * g.nx);
    Arange(g.offset.1 * g.nx, (g.offset.1 + g.ny) * g.nx)
  }

  function LocalNonOverlappingCellIDs(g: Grid): (r: seq<int>)
    ensures forall x :: x in r <==> g.bottom * g.nx <= x < (g.ny - g.top) * g.nx
  {
    ArangeMembership(g.bottom * g.nx, (g.ny - g.top) * g.nx);
    Arange(g.bottom * g.nx, (g.ny - g.top) * g.nx)
  }

  function LocalOverlappingCellIDs(g: Grid): (r: seq<int>)
    ensures forall x :: x in r <==> 0 <= x < g.ny * g.nx
  {
    ArangeMembership(0, g.ny * g.nx);
    Arange(0, g.ny * g.nx)
  }

  /** `__repr__` of a two-dimensional grid. */
  function Repr(className: string, args: map<string, Gridlike.ArgValue>): (r: Result<string, Gridlike.ReprError>)
    ensures r.Ok? <==> "dx" in args && "nx" in args && "dy" in args && "ny" in args
    ensures r.Ok? ==> (r.value == className + "(dx=" + Gridlike.Str(args["dx"])
      + (if args["nx"] == Gridlike.NoneArg then "" else ", nx=" + Gridlike.Str(args["nx"]))
      + ", dy=" + Gridlike.Str(args["dy"])
      + (if args["ny"] == Gridlike.NoneArg then "" else ", ny=" + Gridlike.Str(args["ny"])) + ")")
  {
    Gridlike.TwoAxisReprWhenKeyed(className, args);
    Gridlike.Repr(className, args, [("dx", "nx"), ("dy", "ny")])
  }

  /**
   * The ranges are made of whole rows of width `nx`: the non-overlapping
   * rows are the overlapping ones without the `bottom` and `top` ghost rows,
   * there are `(ny - bottom - top) * nx` of them, and the global ranges are
   * the local ones moved by `offset.1` rows.
   */
  lemma {:induction false} RowRanges(g: Grid)
    requires Valid(g)
    ensures LocalNonOverlappingCellIDs(g) == LocalOverlappingCellIDs(g)[g.bottom * g.nx .. (g.ny - g.top) * g.nx]
    ensures GlobalNonOverlappingCellIDs(g) == GlobalOverlappingCellIDs(g)[g.bottom * g.nx .. (g.ny - g.top) * g.nx]
    ensures |GlobalNonOverlappingCellIDs(g)| == (g.ny - g.bottom - g.top) * g.nx
    ensures GlobalNonOverlappingCellIDs(g) == Shift(LocalNonOverlappingCellIDs(g), g.offset.1 * g.nx)
    ensures GlobalOverlappingCellIDs(g) == Shift(LocalOverlappingCellIDs(g), g.offset.1 * g.nx)
  {
    SlabRanges(g.ny, g.offset.1, g.bottom, g.top, g.nx);
    assert g.ny * g.nx == g.ny * g.nx;
  }

  /** A global ID belongs to the slab's own cells exactly when its row does. */
  lemma {:induction false} OwnedByRow(g: Grid, x: int)
    requires g.nx > 0
    ensures x in GlobalNonOverlappingCellIDs(g) <==> g.offset.1 + g.bottom <= x / g.nx < g.offset.1 + g.ny - g.top
  {
    ArangeRows(g.offset.1 + g.bottom, g.offset.1 + g.ny - g.top, g.nx, x);
  }
}

/** Cell IDs of a three-dimensional grid partitioned along z, in whole xy-planes. */
module Gridlike3D {
  import opened Ranges
  import Gridlike
  import opened Results

  /**
   * One slab of a three-dimensional grid: `nx` by `ny` by `nz` cells
   * numbered plane by plane, starting at global plane `offset.2`, with
   * `front` and `back` ghost planes.  The source writes a plane bound as
   * `a * nx * ny`; the functions below write `a * (nx * ny)`, the same integer.
   */
  datatype Grid = Grid(nx: int, ny: int, nz: int, offset: (int, int, int), front: int, back: int)

  predicate Valid(g: Grid)
  {
    g.nx >= 0 && g.ny >= 0 && g.front >= 0 && g.back >= 0 && g.front + g.back <= g.nz
  }

  function GlobalNonOverlappingCellIDs(g: Grid): (r: seq<int>)
    ensures forall x :: x in r <==> (g.offset.2 + g.front) * (g.nx * g.ny) <= x < (g.offset.2 + g.nz - g.back) * (g.nx * g.ny)
  {
    ArangeMembership((g.offset.2 + g.front) * (g.nx * g.ny), (g.offset.2 + g.nz - g.back) * (g.nx * g.ny));
    Arange((g.offset.2 + g.front) * (g.nx * g.ny), (g.offset.2 + g.nz - g.back) * (g.nx * g.ny))
  }

  function GlobalOverlappingCellIDs(g: Grid): (r: seq<int>)
    ensures forall x :: x in r <==> g.offset.2 * (g.nx * g.ny) <= x < (g.offset.2 + g.nz) * (g.nx * g.ny)
  {
    ArangeMembership(g.offset.2 * (g.nx * g.ny), (g.offset.2 + g.nz) * (g.nx * g.ny));
    Arange(g.offset.2 * (g.nx * g.ny), (g.offset.2 + g.nz) * (g.nx * g.ny))
  }

  function LocalNonOverlappingCellIDs(g: Grid): (r: seq<int>)
    ensures forall x :: x in r <==> g.front * (g.nx * g.ny) <= x < (g.nz - g.back) * (g.nx * g.ny)
  {
    ArangeMembership(g.front * (g.nx * g.ny), (g.nz - g.back) * (g.nx * g.ny));
    Arange(g.front * (g.nx * g.ny), (g.nz - g.back) * (g.nx * g.ny))
  }

  function LocalOverlappingCellIDs(g: Grid): (r: seq<int>)
    ensures forall x :: x in r <==> 0 <= x < g.nz * (g.nx * g.ny)
  {
    ArangeMembership(0, g.nz * (g.nx * g.ny));
    Arange(0, g.nz * (g.nx * g.ny))
  }

  /** `__repr__` of a three-dimensional grid. */
  function Repr(className: string, args: map<string, Gridlike.ArgValue>): (r: Result<string, Gridlike.ReprError>)
    ensures r.Ok? <==> "dx" in args && "nx" in args && "dy" in args && "ny" in args && "dz" in args && "nz" in args
    ensures r.Ok? ==> (r.value == className + "(dx=" + Gridlike.Str(args["dx"])
      + (if args["nx"] == Gridlike.NoneArg then "" else ", nx=" + Gridlike.Str(args["nx"]))
      + ", dy=" + Gridlike.Str(args["dy"])
      + (if args["ny"] == Gridlike.NoneArg then "" else ", ny=" + Gridlike.Str(args["ny"]))
      + ", dz=" + Gridlike.Str(args["dz"])
      + (if args["nz"] == Gridlike.NoneArg then "" else ", nz=" + Gridlike.Str(args["nz"])) + ")")
  {
    Gridlike.ThreeAxisRendered(args);
    Gridlike.ThreeAxisReprWhenKeyed(className, args);
    Gridlike.Repr(className, args, [("dx", "nx"), ("dy", "ny"), ("dz", "nz")])
  }

  /**
   * The ranges are made of whole xy-planes of `nx * ny` cells: the
   * non-overlapping planes are the overlapping ones without the `front` and
   * `back` ghost planes, there are `(nz - front - back) * nx * ny` IDs, and
   * the global ranges are the local ones moved by `offset.2` planes.
   */
  lemma {:induction false} PlaneRanges(g: Grid)
    requires Valid(g)
    ensures LocalNonOverlappingCellIDs(g)
         == LocalOverlappingCellIDs(g)[g.front * (g.nx * g.ny) .. (g.nz - g.back) * (g.nx * g.ny)]
    ensures GlobalNonOverlappingCellIDs(g)
         == GlobalOverlappingCellIDs(g)[g.front * (g.nx * g.ny) .. (g.nz - g.back) * (g.nx * g.ny)]
    ensures |GlobalNonOverlappingCellIDs(g)| == (g.nz - g.front - g.back) * (g.nx * g.ny)
    ensures GlobalNonOverlappingCellIDs(g) == Shift(LocalNonOverlappingCellIDs(g), g.offset.2 * (g.nx * g.ny))
    ensures GlobalOverlappingCellIDs(g) == Shift(LocalOverlappingCellIDs(g), g.offset.2 * (g.nx * g.ny))
  {
    assert g.nx * g.ny >= 0 by { Ranges.ScaleMonotone(0, g.nx, g.ny); }
    SlabRanges(g.nz, g.offset.2, g.front, g.back, g.nx * g.ny);
  }

  /** A global ID belongs to the slab's own cells exactly when its xy-plane does. */
  lemma {:induction false} OwnedByPlane(g: Grid, x: int)
    requires g.nx > 0 && g.ny > 0
    ensures x in GlobalNonOverlappingCellIDs(g)
        <==> g.offset.2 + g.front <= x / (g.nx * g.ny) < g.offset.2 + g.nz - g.back
  {
    assert g.nx * g.ny > 0;
    ArangeRows(g.offset.2 + g.front, g.offset.2 + g.nz - g.back, g.nx * g.ny, x);
  }
}

=== FILE: pyamgx.dfy ===
/**
 * `PyAMGXSolver`: the AMGX configuration dictionary the constructor fills
 * in, the tolerance adapters, and `_solve_`'s configuration writes and
 * residual rescaling.  The `"solver"` section of a configuration dictionary
 * is a Python dict shared between shallow copies, so sections live in a
 * store addressed by reference and every write goes through it.
 */
module PyAMGXSolver {
  import opened Results
  import opened SolverBase

  /** The AMGX `convergence` modes the adapters choose: `"ABSOLUTE"` and `"RELATIVE_INI_CORE"`. */
  datatype Token = Absolute | RelativeIniCore

  /** A value in an AMGX configuration dictionary. */
  datatype ConfigValue = IntValue(i: int) | RealValue(x: real) | Text(s: string) | Object(name: string)

  /** The `"solver"` section of a configuration dictionary. */
  type Section = map<string, ConfigValue>

  /** Every live `"solver"` section, by reference. */
  type Store = map<nat, Section>

  /**
   * A configuration dictionary: its other top-level entries, and a
   * reference to its `"solver"` section.  A shallow `copy()` duplicates
   * `top` and keeps the same reference.
   */
  datatype ConfigDict = ConfigDict(top: map<string, ConfigValue>, solver: nat)

  /** A preconditioner or smoother object, named by its class. */
  datatype Component = Component(name: string)

  /** The solver's settings after construction. */
  datatype Solver = Solver(configDict: ConfigDict, tolerance: real, criterion: Criterion, iterations: int)

  /**
   * The writes `__init__` makes to the `"solver"` section: the iteration
   * limit, then the preconditioner and smoother when they are given, then
   * every keyword argument, which therefore wins over the three before it.
   */
  function Configure(s: Section, iterations: int, precon: Option<Component>, smoother: Option<Component>,
                     kwargs: map<string, ConfigValue>): (r: Section)
    ensures r.Keys == s.Keys + {"max_iters"} + kwargs.Keys
                      + (if precon.Some? then {"preconditioner"} else {})
                      + (if smoother.Some? then {"smoother"} else {})
    ensures forall k :: k in kwargs ==> r[k] == kwargs[k]
    ensures "max_iters" !in kwargs ==> r["max_iters"] == IntValue(iterations)
    ensures precon.Some? && "preconditioner" !in kwargs ==> r["preconditioner"] == Object(precon.value.name)
    ensures smoother.Some? && "smoother" !in kwargs ==> r["smoother"] == Object(smoother.value.name)
    ensures precon.None? && "preconditioner" in s && "preconditioner" !in kwargs ==>
              r["preconditioner"] == s["preconditioner"]
    ensures smoother.None? && "smoother" in s && "smoother" !in kwargs ==> r["smoother"] == s["smoother"]
    ensures forall k :: k in s && k !in kwargs && k !in {"max_iters", "preconditioner", "smoother"} ==> r[k] == s[k]
  {
    var withIterations := s["max_iters" := IntValue(iterations)];
    var withPrecon := if precon.Some? then withIterations["preconditioner" := Object(precon.value.name)]
                      else withIterations;
    var withSmoother := if smoother.Some? then withPrecon["smoother" := Object(smoother.value.name)]
                        else withPrecon;
    withSmoother + kwargs
  }

  /**
   * `__init__`: the solver keeps a shallow copy of the class's
   * configuration dictionary, so the writes of `Configure` land in the
   * `"solver"` section the class dictionary shares.
   */
  function Construct(store: Store, classDict: ConfigDict, tolerance: real, criterion: Criterion, iterations: int,
                     precon: Option<Component>, smoother: Option<Component>,
                     kwargs: map<string, ConfigValue>): (r: (Store, Solver))
    requires classDict.solver in store
    ensures r.1 == Solver(classDict, tolerance, criterion, iterations)
    ensures r.0.Keys == store.Keys
    ensures r.0[classDict.solver] == Configure(store[classDict.solver], iterations, precon, smoother, kwargs)
    ensures forall ref :: ref in store && ref != classDict.solver ==> r.0[ref] == store[ref]
  {
    var section := Configure(store[classDict.solver], iterations, precon, smoother, kwargs);
    (store[classDict.solver := section], Solver(classDict, tolerance, criterion, iterations))
  }

  /**
   * The shared section lets a preconditioner leak: a second solver built
   * from the same class dictionary without a preconditioner still carries
   * the first one's.
   */
  lemma PreconditionerLeaks(store: Store, classDict: ConfigDict, iterations: int, p: Component)
    requires classDict.solver in store
    ensures var (store1, _) := Construct(store, classDict, 1e-10, Default, iterations, Some(p), None, map[]);
            var (store2, _) := Construct(store1, classDict, 1e-10, Default, iterations, None, None, map[]);
            store2[classDict.solver]["preconditioner"] == Object(p.name)
  {
    var (store1, _) := Construct(store, classDict, 1e-10, Default, iterations, Some(p), None, map[]);
    assert store1[classDict.solver]["preconditioner"] == Object(p.name);
  }

  /**
   * The `_adapt<Criterion>Tolerance` methods of the class.  `default` is
   * `initial`, relative to the initial residual; `unscaled`, `RHS` and
   * `matrix` are absolute tests against the tolerance scaled by their
   * reference norm.  The class has no `legacy` or `solution` adapter.
   */
  function Adapt(c: Criterion, n: Norms): (r: Result<Adaptation<Token>, SolverError>)
    decreases if c == Default then 1 else 0
    ensures r.Ok? <==> c !in {Legacy, Solution}
    ensures r.Err? ==> r.error == NoAdapter(c)
    ensures r.Ok? ==> r.value.token.Some?
    ensures c in {Default, Initial} ==> r == Ok(Adaptation(1.0, Some(RelativeIniCore)))
    ensures r.Ok? ==> (r.value.token == Some(Absolute) <==> c in {Unscaled, RHS, Matrix})
    ensures r.Ok? && r.value.token == Some(Absolute) ==> r.value.scale == ReferenceNorm(c, n).value
  {
    match c
    case Default => Adapt(Initial, n)
    case Unscaled => Ok(Adaptation(1.0, Some(Absolute)))
    case RHS => Ok(Adaptation(n.rhs, Some(Absolute)))
    case Matrix => Ok(Adaptation(n.matrix, Some(Absolute)))
    case Initial => Ok(Adaptation(1.0, Some(RelativeIniCore)))
    case _ => Err(NoAdapter(c))
  }

  /** `default` is exactly `initial`. */
  lemma DefaultIsInitial(n: Norms)
    ensures Adapt(Default, n) == Adapt(Initial, n)
  {
  }

  /** The string AMGX reads as its `"convergence"` setting. */
  function TokenName(t: Token): (r: string)
    ensures t == Absolute ==> r == "ABSOLUTE"
    ensures t == RelativeIniCore ==> r == "RELATIVE_INI_CORE"
  {
    match t
    case Absolute => "ABSOLUTE"
    case RelativeIniCore => "RELATIVE_INI_CORE"
  }

  /** What `self.solver` reports after solving, with the solution it downloads into `x`. */
  datatype Reply = Reply(status: int, iterations: int, residual: real, x: seq<real>)

  /**
   * A `_solve_` call: the store it leaves behind, the caller's array `x`
   * as the call leaves it (AMGX downloads the solution into it in place),
   * and either the convergence record with the solution or the error it
   * raised.
   */
  datatype Outcome = Outcome(store: Store, x: seq<real>, result: Result<(Convergence, seq<real>), SolverError>)

  /**
   * `_solve_`: adapts the tolerance, writes the scaled tolerance and the
   * convergence token into the `"solver"` section (the copy is shallow, so
   * this is the section `self.config_dict` shares), has `self.solver` solve
   * and reports the raw residual divided by the tolerance factor.  The
   * solution is downloaded into `x` before that division, so a zero factor
   * raises with `x` already overwritten.  The
   * configuration object built from the new section goes to a local solver
   * that never solves, so `solveFnc`, standing for `self.solver`, receives
   * only the right-hand side and the initial guess.
   */
  function Solve_(store: Store, solver: Solver, n: Norms, x: seq<real>, b: seq<real>,
                  solveFnc: (seq<real>, seq<real>) -> Reply): (r: Outcome)
    requires solver.configDict.solver in store
    ensures Adapt(solver.criterion, n).Err? ==> r == Outcome(store, x, Err(Adapt(solver.criterion, n).error))
    ensures Adapt(solver.criterion, n).Ok? ==>
              var a := Adapt(solver.criterion, n).value;
              var ref := solver.configDict.solver;
              && r.store.Keys == store.Keys
              && (forall other :: other in store && other != ref ==> r.store[other] == store[other])
              && r.store[ref].Keys == store[ref].Keys + {"tolerance", "convergence"}
              && r.store[ref]["tolerance"] == RealValue(solver.tolerance * a.scale)
              && r.store[ref]["convergence"] == Text(TokenName(a.token.value))
              && (forall k :: k in store[ref] && k !in {"tolerance", "convergence"} ==> r.store[ref][k] == store[ref][k])
              && (r.result.Err? <==> a.scale == 0.0)
              && (r.result.Err? ==> r.result.error == ZeroDivision)
              && r.x == WriteInto(x, solveFnc(b, x).x)
    ensures r.result.Ok? ==>
              var reply := solveFnc(b, x);
              var a := Adapt(solver.criterion, n).value;
              && r.result.value.1 == r.x
              && |r.result.value.1| == |x|
              && r.result.value.0.suite == "pyamgx"
              && r.result.value.0.code == reply.status
              && r.result.value.0.iterations == reply.iterations
              && r.result.value.0.toleranceScale.None?
              && r.result.value.0.residual * a.scale == reply.residual
  {
    match Adapt(solver.criterion, n)
    case Err(e) => Outcome(store, x, Err(e))
    case Ok(a) =>
      var ref := solver.configDict.solver;
      var section := store[ref]["tolerance" := RealValue(solver.tolerance * a.scale)]
                               ["convergence" := Text(TokenName(a.token.value))];
      var store' := store[ref := section];
      var reply := solveFnc(b, x);
      var x' := WriteInto(x, reply.x);
      if a.scale == 0.0 then Outcome(store', x', Err(ZeroDivision))
      else Outcome(store', x', Ok((Convergence("pyamgx", reply.status, reply.iterations, None,
                                      reply.residual / a.scale, map[]), x')))
  }

  /**
   * The tolerance written into the configuration never reaches the solver
   * that solves: two solvers that differ only in their tolerance report the
   * same convergence record and solution.
   */
  lemma ToleranceDoesNotReachSolve(store: Store, solver: Solver, tolerance: real, n: Norms, x: seq<real>,
                                   b: seq<real>, solveFnc: (seq<real>, seq<real>) -> Reply)
    requires solver.configDict.solver in store
    ensures Solve_(store, solver, n, x, b, solveFnc).result
            == Solve_(store, solver.(tolerance := tolerance), n, x, b, solveFnc).result
  {
  }

  /**
   * For the absolute criteria with a positive reference norm, the test a
   * solver configured with this section would apply to its raw residual
   * against the scaled tolerance is the same as the reported residual
   * against the unscaled tolerance; when the factor is 1 the reported
   * residual is the raw one.
   */
  lemma ReportedResidualMatchesTest(store: Store, solver: Solver, n: Norms, x: seq<real>, b: seq<real>,
                                    solveFnc: (seq<real>, seq<real>) -> Reply)
    requires solver.configDict.solver in store
    requires Adapt(solver.criterion, n).Ok? && Adapt(solver.criterion, n).value.scale > 0.0
    ensures var o := Solve_(store, solver, n, x, b, solveFnc);
            var a := Adapt(solver.criterion, n).value;
            && o.result.Ok?
            && (solveFnc(b, x).residual <= solver.tolerance * a.scale
                <==> o.result.value.0.residual <= solver.tolerance)
            && (a.scale == 1.0 ==> o.result.value.0.residual == solveFnc(b, x).residual)
  {
    var o := Solve_(store, solver, n, x, b, solveFnc);
    var a := Adapt(solver.criterion, n).value;
    var reported := o.result.value.0.residual;
    assert reported * a.scale == solveFnc(b, x).residual;
    ScaleByPositive(reported, solver.tolerance, a.scale);
  }

  /** The message `_solve` raises under several processes. */
  const MultipleProcessorsMessage := "SciPy solvers cannot be used with multiple processors"

  /**
   * `_solve`: refuses to run under several processes, touching nothing;
   * otherwise solves and writes the solution back into the variable.
   */
  function Solve(store: Store, solver: Solver, nproc: int, n: Norms, values: seq<real>, rhs: seq<real>,
                 solveFnc: (seq<real>, seq<real>) -> Reply): (r: (Store, Result<(Convergence, seq<real>), SolverError>))
    requires solver.configDict.solver in store
    ensures nproc > 1 ==> r == (store, Err(MultipleProcessors(MultipleProcessorsMessage)))
    ensures nproc <= 1 ==> r == (Solve_(store, solver, n, values, rhs, solveFnc).store,
                                 Solve_(store, solver, n, values, rhs, solveFnc).result)
    ensures r.1.Ok? ==> |r.1.value.1| == |values|
  {
    if nproc > 1 then (store, Err(MultipleProcessors(MultipleProcessorsMessage)))
    else
      var o := Solve_(store, solver, n, values, rhs, solveFnc);
      (o.store, o.result)
  }
}

=== FILE: pysparse.dfy ===
/**
 * `PysparseSolver`: tolerance factors relative to pysparse's legacy norm,
 * the preconditioned call to the pysparse routine, the rescaling of its
 * relative residual, and the guards and unit rescaling of `_solve`.
 */
module PysparseSolver {
  import opened Results
  import opened SolverBase

  /** Pysparse takes no convergence token: its adapters return `None` in that place. */
  type NoToken = ()

  /**
   * The `_adapt<Criterion>Tolerance` methods of the class.  Pysparse
   * measures its residual relative to the legacy norm, so each factor is
   * the criterion's reference norm divided by the legacy norm; `legacy`
   * itself is 1.  No adapter gives a token.  The class defines no `default`
   * or `solution` adapter.
   */
  function Adapt(c: Criterion, n: Norms): (r: Result<Adaptation<NoToken>, SolverError>)
    ensures r.Ok? ==> r.value.token.None?
    ensures c == Legacy ==> r == Ok(Adaptation(1.0, None))
    ensures r.Ok? <==> c == Legacy || (c in {Unscaled, RHS, Matrix, Initial} && n.legacy != 0.0)
    ensures r.Err? ==> r.error == if c in {Default, Solution} then NoAdapter(c) else ZeroDivision
    ensures r.Ok? && c != Legacy ==> r.value.scale * n.legacy == ReferenceNorm(c, n).value
  {
    match c
    case Legacy => Ok(Adaptation(1.0, None))
    case Default => Err(NoAdapter(Default))
    case Solution => Err(NoAdapter(Solution))
    case _ =>
      if n.legacy == 0.0 then Err(ZeroDivision)
      else
        var reference := match c
                         case Unscaled => 1.0
                         case RHS => n.rhs
                         case Matrix => n.matrix
                         case _ => n.residual;
        Ok(Adaptation(reference / n.legacy, None))
  }

  /** A pysparse matrix: its shape, and an identity standing for its entries. */
  datatype SparseMatrix = SparseMatrix(rows: int, cols: int, id: int)

  /** `self.matrix`, which is the integer 0 until a term has built a matrix. */
  datatype StoredMatrix = ZeroMatrix | Stored(m: SparseMatrix)

  /** A preconditioner object, and the handle `P` its `_applyToMatrix` produces. */
  datatype Preconditioner = Preconditioner(name: string)
  datatype Handle = Handle(id: int)

  /** The arguments of `solveFnc(A, b, x, tolerance, iterations, P)`. */
  datatype Call = Call(a: SparseMatrix, b: seq<real>, x: seq<real>, tolerance: real, iterations: int,
                       p: Option<Handle>)

  /** What `solveFnc` returns, with the solution it writes into `x`. */
  datatype Reply = Reply(info: int, iter: int, relres: real, x: seq<real>)

  /** The solver's settings. */
  datatype Config = Config(tolerance: real, criterion: Criterion, iterations: int,
                           preconditioner: Option<Preconditioner>)

  /** What `_solve_` leaves behind: the call it made, the convergence record and the solution. */
  datatype Outcome = Outcome(call: Call, convergence: Convergence, x: seq<real>)

  /**
   * `_solve_`: adapts the tolerance, preconditions the matrix when there is
   * a preconditioner, calls the pysparse routine with the scaled tolerance,
   * and reports its relative residual multiplied back by the legacy norm.
   * `applyToMatrix` and `solveFnc` are the foreign preconditioner and solver;
   * the solver writes its solution into the array `x` in place.
   */
  function Solve_(cfg: Config, l: SparseMatrix, x: seq<real>, b: seq<real>, n: Norms,
                  applyToMatrix: (Preconditioner, SparseMatrix) -> (Handle, SparseMatrix),
                  solveFnc: Call -> Reply): (r: Result<Outcome, SolverError>)
    ensures r.Ok? <==> Adapt(cfg.criterion, n).Ok?
    ensures r.Err? ==> r.error == Adapt(cfg.criterion, n).error
    ensures r.Ok? ==> r.value.call.tolerance == cfg.tolerance * Adapt(cfg.criterion, n).value.scale
                      && r.value.call.iterations == cfg.iterations
                      && r.value.call.b == b && r.value.call.x == x
    ensures r.Ok? && cfg.preconditioner.None? ==> r.value.call.p.None? && r.value.call.a == l
    ensures r.Ok? && cfg.preconditioner.Some? ==>
              var (h, a) := applyToMatrix(cfg.preconditioner.value, l);
              r.value.call.p == Some(h) && r.value.call.a == a
    ensures r.Ok? ==> var reply := solveFnc(r.value.call);
              && r.value.convergence == Convergence("pysparse", reply.info, reply.iter,
                                                     Some(Adapt(cfg.criterion, n).value.scale),
                                                     reply.relres * n.legacy, map[])
              && r.value.x == WriteInto(x, reply.x)
    ensures r.Ok? ==> |r.value.x| == |x|
  {
    match Adapt(cfg.criterion, n)
    case Err(e) => Err(e)
    case Ok(adaptation) =>
      var (p, a) := match cfg.preconditioner
                    case None => (None, l)
                    case Some(pre) => var (h, m) := applyToMatrix(pre, l); (Some(h), m);
      var call := Call(a, b, x, cfg.tolerance * adaptation.scale, cfg.iterations, p);
      var reply := solveFnc(call);
      Ok(Outcome(call, Convergence("pysparse", reply.info, reply.iter, Some(adaptation.scale),
                                   reply.relres * n.legacy, map[]), WriteInto(x, reply.x)))
  }

  /**
   * With a positive legacy norm, pysparse's own stopping test (relative
   * residual within the tolerance it was given) is exactly the criterion's
   * absolute test on the reported residual: residual <= tolerance times the
   * criterion's reference norm.
   */
  lemma StoppingTestMatchesCriterion(cfg: Config, l: SparseMatrix, x: seq<real>, b: seq<real>, n: Norms,
                                     applyToMatrix: (Preconditioner, SparseMatrix) -> (Handle, SparseMatrix),
                                     solveFnc: Call -> Reply)
    requires cfg.criterion in {Unscaled, RHS, Matrix, Initial} && n.legacy > 0.0
    ensures Solve_(cfg, l, x, b, n, applyToMatrix, solveFnc).Ok?
    ensures var o := Solve_(cfg, l, x, b, n, applyToMatrix, solveFnc).value;
            solveFnc(o.call).relres <= o.call.tolerance
            <==> o.convergence.residual <= cfg.tolerance * ReferenceNorm(cfg.criterion, n).value
  {
    var o := Solve_(cfg, l, x, b, n, applyToMatrix, solveFnc).value;
    var scale := Adapt(cfg.criterion, n).value.scale;
    var rel := solveFnc(o.call).relres;
    var reference := ReferenceNorm(cfg.criterion, n).value;
    assert o.convergence.residual == rel * n.legacy;
    assert cfg.tolerance * reference == (cfg.tolerance * scale) * n.legacy by {
      assert scale * n.legacy == reference;
    }
    ScaleByPositive(rel, cfg.tolerance * scale, n.legacy);
  }

  /** The variable the solution is written back into: its flat values and its unit's factor. */
  datatype Variable = Variable(values: seq<real>, unitFactor: real)

  /** The message `_solve` raises under several processes. */
  const MultipleProcessorsMessage := "Pysparse solvers cannot be used with multiple processors"

  /** `_solve` refuses a missing, non-square or mis-sized matrix. */
  predicate MatrixMismatch(matrix: StoredMatrix, v: Variable)
  {
    matrix.ZeroMatrix? || matrix.m.rows != matrix.m.cols || matrix.m.rows != |v.values|
  }

  /**
   * `_solve`: refuses to run under several processes, then refuses a matrix
   * that does not fit the variable, then solves and writes the solution back
   * divided by the variable's unit factor when that factor is not 1.
   */
  function Solve(cfg: Config, nproc: int, matrix: StoredMatrix, v: Variable, rhs: seq<real>, n: Norms,
                 applyToMatrix: (Preconditioner, SparseMatrix) -> (Handle, SparseMatrix),
                 solveFnc: Call -> Reply): (r: Result<(Convergence, Variable), SolverError>)
    requires v.unitFactor != 0.0
    ensures nproc > 1 ==> r == Err(MultipleProcessors(MultipleProcessorsMessage))
    ensures nproc <= 1 && MatrixMismatch(matrix, v) ==> r == Err(SolutionVariableNumber)
    ensures nproc <= 1 && !MatrixMismatch(matrix, v) ==>
              (r.Ok? <==> Solve_(cfg, matrix.m, v.values, rhs, n, applyToMatrix, solveFnc).Ok?)
    ensures nproc <= 1 && !MatrixMismatch(matrix, v) && r.Err? ==>
              r.error == Solve_(cfg, matrix.m, v.values, rhs, n, applyToMatrix, solveFnc).error
    ensures r.Ok? ==>
              var o := Solve_(cfg, matrix.m, v.values, rhs, n, applyToMatrix, solveFnc).value;
              && r.value.0 == o.convergence
              && r.value.1.unitFactor == v.unitFactor
              && |r.value.1.values| == |o.x|
              && |r.value.1.values| == |v.values|
              && (v.unitFactor == 1.0 ==> r.value.1.values == o.x)
              && (forall i :: 0 <= i < |o.x| ==> r.value.1.values[i] * v.unitFactor == o.x[i])
  {
    if nproc > 1 then Err(MultipleProcessors(MultipleProcessorsMessage))
    else if MatrixMismatch(matrix, v) then Err(SolutionVariableNumber)
    else
      match Solve_(cfg, matrix.m, v.values, rhs, n, applyToMatrix, solveFnc)
      case Err(e) => Err(e)
      case Ok(o) =>
        var factor := v.unitFactor;
        var values := if factor != 1.0 then seq(|o.x|, i requires 0 <= i < |o.x| => o.x[i] / factor) else o.x;
        Ok((o.convergence, Variable(values, factor)))
  }
}

=== FILE: ranges.dfy ===
/**
 * Half-open integer ranges in the sense of numpy's `arange(lo, hi)` with the
 * default step 1: the integers lo, lo+1, ..., hi-1, and the empty range when
 * hi <= lo.
 */
module Ranges {

  /** Number of elements of `arange(lo, hi)`. */
  function Count(lo: int, hi: int): nat
  {
    if hi <= lo then 0 else hi - lo
  }

  /** numpy's `arange(lo, hi)`. */
  function Arange(lo: int, hi: int): seq<int>
  {
    seq(Count(lo, hi), i => lo + i)
  }

  /** Every element of `s` moved by `d` (numpy's `s + d`). */
  function Shift(s: seq<int>, d: int): (r: seq<int>)
    ensures |r| == |s|
    ensures forall i :: 0 <= i < |s| ==> r[i] - d == s[i]
  {
    seq(|s|, i requires 0 <= i < |s| => s[i] + d)
  }

  /** Membership in a range is exactly the half-open bound check. */
  lemma ArangeMembership(lo: int, hi: int)
    ensures forall x :: x in Arange(lo, hi) <==> lo <= x < hi
  {
    forall x | lo <= x < hi
      ensures x in Arange(lo, hi)
    {
      assert Arange(lo, hi)[x - lo] == x;
    }
  }

  /** Moving a range by `d` moves both of its bounds by `d`. */
  lemma ArangeShift(lo: int, hi: int, d: int)
    ensures Shift(Arange(lo, hi), d) == Arange(lo + d, hi + d)
  {
  }

  /** A range whose bounds lie inside another range is a contiguous slice of it. */
  lemma ArangeSlice(lo: int, hi: int, lo': int, hi': int)
    requires lo <= lo' <= hi' <= hi
    ensures Arange(lo', hi') == Arange(lo, hi)[lo' - lo .. hi' - lo]
    ensures forall x :: x in Arange(lo', hi') ==> x in Arange(lo, hi)
  {
    var big := Arange(lo, hi);
    var small := Arange(lo', hi');
    assert small == big[lo' - lo .. hi' - lo];
  }

  /** Two adjacent ranges concatenate to the range spanning both. */
  lemma ArangeSplit(lo: int, mid: int, hi: int)
    requires lo <= mid <= hi
    ensures Arange(lo, mid) + Arange(mid, hi) == Arange(lo, hi)
  {
  }

  /**
   * A range whose bounds are multiples of a positive `width` consists of
   * whole rows: `x` lies in it exactly when its row `x / width` lies in
   * `[a, b)`.
   */
  lemma {:induction false} ArangeRows(a: int, b: int, width: int, x: int)
    requires width > 0
    ensures x in Arange(a * width, b * width) <==> a <= x / width < b
  {
    ArangeMembership(a * width, b * width);
    var q := x / width;
    assert x == q * width + x % width;
    RowBound(a, q, width);
    RowBound(b, q, width);
  }

  /** `a * width <= x` exactly when `a <= x / width`, for a positive width. */
  lemma RowBound(a: int, q: int, width: int)
    requires width > 0
    ensures a <= q <==> a * width <= q * width
    ensures a <= q <==> a * width < q * width + width
  {
    var d := q - a;
    assert q * width - a * width == d * width;
    if d >= 0 {
      assert d * width >= 0;
    } else {
      assert d <= -1;
      assert d * width <= -1 * width;
    }
  }

  /**
   * The four ranges of one axis of a partitioned slab: `extent` cells (or
   * rows, or planes) of `stride` IDs each, starting at slab `offset`, with
   * `before` and `after` ghost layers.  The non-overlapping ranges are the
   * overlapping ones with the ghost layers cut off, they have
   * `(extent - before - after) * stride` elements, and the global ranges are
   * the local ones moved by `offset * stride`.
   */
  lemma {:induction false} SlabRanges(extent: int, offset: int, before: int, after: int, stride: int)
    requires before >= 0 && after >= 0 && before + after <= extent && stride >= 0
    ensures Arange(before * stride, (extent - after) * stride)
         == Arange(0, extent * stride)[before * stride .. (extent - after) * stride]
    ensures Arange((offset + before) * stride, (offset + extent - after) * stride)
         == Arange(offset * stride, (offset + extent) * stride)[before * stride .. (extent - after) * stride]
    ensures |Arange(before * stride, (extent - after) * stride)| == (extent - before - after) * stride
    ensures Shift(Arange(before * stride, (extent - after) * stride), offset * stride)
         == Arange((offset + before) * stride, (offset + extent - after) * stride)
    ensures Shift(Arange(0, extent * stride), offset * stride)
         == Arange(offset * stride, (offset + extent) * stride)
  {
    var b, e, x, o := before * stride, (extent - after) * stride, extent * stride, offset * stride;
    ScaleMonotone(0, before, stride);
    ScaleMonotone(before, extent - after, stride);
    ScaleMonotone(extent - after, extent, stride);
    ScaleSum(offset, before, stride);
    ScaleSum(offset, extent - after, stride);
    ScaleSum(offset, extent, stride);
    assert offset + extent - after == offset + (extent - after);
    assert e - b == (extent - before - after) * stride by {
      ScaleSum(before, extent - before - after, stride);
    }
    assert (offset + before) * stride == o + b;
    assert (offset + extent - after) * stride == o + e;
    assert (offset + extent) * stride == o + x;
    SlabLinear(o, b, e, x);
  }

  /** The slab facts with the stride multiplied out. */
  lemma SlabLinear(o: int, b: int, e: int, x: int)
    requires 0 <= b <= e <= x
    ensures Arange(b, e) == Arange(0, x)[b .. e]
    ensures Arange(o + b, o + e) == Arange(o, o + x)[b .. e]
    ensures |Arange(b, e)| == e - b
    ensures Shift(Arange(b, e), o) == Arange(o + b, o + e)
    ensures Shift(Arange(0, x), o) == Arange(o, o + x)
  {
    ArangeSlice(0, x, b, e);
    ArangeSlice(o, o + x, o + b, o + e);
    ArangeShift(b, e, o);
    ArangeShift(0, x, o);
  }

  /** Scaling distributes over a sum of two row counts. */
  lemma ScaleSum(a: int, b: int, stride: int)
    ensures (a + b) * stride == a * stride + b * stride
  {
  }

  /** Scaling by a non-negative stride keeps the order of row counts. */
  lemma ScaleMonotone(a: int, b: int, stride: int)
    requires a <= b && stride >= 0
    ensures a * stride <= b * stride
  {
    assert (b - a) * stride >= 0;
    ScaleSum(a, b - a, stride);
  }
}

=== FILE: results.dfy ===
/** Failure-carrying wrappers shared by every module of the model. */
module Results {

  /** A value that may be absent (Python's `None`). */
  datatype Option<+T> = None | Some(value: T)

  /** Either a value or the error the source would raise instead. */
  datatype Result<+T, +E> = Ok(value: T) | Err(error: E)
}

=== FILE: solver_base.dfy ===
/**
 * Vocabulary shared by the solver backends: tolerance criteria, what an
 * adapter returns, the norms an adapter may consult, the
 * convergence record a solve produces and the errors a solve raises.
 */
module SolverBase {
  import opened Results

  /** The names a solver's `criterion` argument may take. */
  datatype Criterion = Default | Unscaled | RHS | Matrix | Initial | Solution | Legacy

  /**
   * What an adapter returns: the tolerance scale factor and the backend's
   * native convergence token `T`, if any.
   */
  datatype Adaptation<T> = Adaptation(scale: real, token: Option<T>)

  /**
   * The norms an adapter may consult, computed by collaborators: the
   * Euclidean norm of the right-hand side, the infinity norm of the matrix,
   * the norm of the initial residual and the backend's legacy normaliser.
   * Floating-point values are modelled as exact reals.
   */
  datatype Norms = Norms(rhs: real, matrix: real, residual: real, legacy: real)

  /**
   * The norm an absolute residual target is measured against: a criterion
   * asks for residual <= tolerance * ReferenceNorm.  Only the four
   * criteria with a fixed reference have one.
   */
  function ReferenceNorm(c: Criterion, n: Norms): (r: Option<real>)
    ensures r.Some? <==> c in {Unscaled, RHS, Matrix, Initial}
  {
    match c
    case Unscaled => Some(1.0)
    case RHS => Some(n.rhs)
    case Matrix => Some(n.matrix)
    case Initial => Some(n.residual)
    case _ => None
  }

  /** The exceptions a solve raises. */
  datatype SolverError =
    | NoAdapter(criterion: Criterion)      // the class defines no `_adapt<Criterion>Tolerance`
    | ZeroDivision                         // Python float division by zero
    | MultipleProcessors(message: string)  // a serial-only backend under several processes
    | SolutionVariableNumber               // `SolutionVariableNumberError`
    | AbstractClass                        // instantiating an abstract base class
    | MissingAttribute(name: string)       // `AttributeError`
    | EmptyStack                           // `numpy.stack` of no arrays
    | IndexOutOfRange                      // a numpy index outside the array
    | ReshapeMismatch                      // a numpy reshape to a shape of another size

  /**
   * The record `_setConvergence` keeps: the suite name, the backend's status
   * code and iteration count, the tolerance scale when the backend passes
   * one, the residual, and any further named values.
   */
  datatype Convergence = Convergence(suite: string, code: int, iterations: int,
                                     toleranceScale: Option<real>, residual: real,
                                     details: map<string, real>)

  /** Python's `int()` of a float, which truncates toward zero. */
  function PyInt(x: real): (r: int)
    ensures x >= 0.0 ==> r >= 0 && r as real <= x < r as real + 1.0
    ensures x < 0.0 ==> r <= 0 && r as real - 1.0 < x <= r as real
    ensures x == (x.Floor as real) ==> r == x.Floor
  {
    if x >= 0.0 then x.Floor else -((-x).Floor)
  }

  /**
   * A foreign routine writing `written` into the caller's array `buffer` in
   * place: the array keeps its length, the positions the routine wrote hold
   * its values, and any others keep theirs.
   */
  function WriteInto(buffer: seq<real>, written: seq<real>): (r: seq<real>)
    ensures |r| == |buffer|
    ensures forall i :: 0 <= i < |r| ==> r[i] == (if i < |written| then written[i] else buffer[i])
  {
    seq(|buffer|, i requires 0 <= i < |buffer| => if i < |written| then written[i] else buffer[i])
  }

  /** A routine that writes every position leaves exactly what it wrote. */
  lemma WriteIntoWhole(buffer: seq<real>, written: seq<real>)
    requires |written| == |buffer|
    ensures WriteInto(buffer, written) == written
  {
  }

  /** Multiplying both sides by a positive number keeps an inequality. */
  lemma ScaleByPositive(a: real, b: real, k: real)
    requires k > 0.0
    ensures a <= b <==> a * k <= b * k
  {
    if a <= b {
      assert (b - a) * k >= 0.0;
    } else {
      assert (a - b) * k > 0.0;
    }
  }
}

=== FILE: stacked_ids.dfy ===
/**
 * The index arithmetic of `TrilinosSolver._globalMatrixAndVectors`: a
 * variable with `dim` components over `numberOfCells` cells is laid out
 * component by component, so component `k` of cell `i` sits at
 * `i + k * numberOfCells`.
 */
module StackedIDs {
  import opened Results
  import opened Ranges
  import opened SolverBase

  /** Position of entry `j` of row `k` when rows of `width` entries are laid end to end. */
  function Flat(k: int, j: int, width: int): int
  {
    k * width + j
  }

  /** A position inside row `k` lies between the starts of rows `k` and `k + 1`. */
  lemma FlatInRow(k: int, j: int, width: int, rows: int)
    requires 0 <= k < rows && 0 <= j < width
    ensures 0 <= Flat(k, j, width) < rows * width
    ensures k * width <= Flat(k, j, width) < (k + 1) * width
  {
    ScaleSum(k, 1, width);
    ScaleMonotone(0, k, width);
    ScaleMonotone(k + 1, rows, width);
  }

  /**
   * `numpy.stack([ids] * dim) + arange(dim)[..., newaxis] * numberOfCells`,
   * flattened: `dim` copies of `ids`, copy `k` moved up by `k` rows of cells.
   */
  function Stack(ids: seq<int>, dim: nat, numberOfCells: int): (r: seq<int>)
    ensures |r| == dim * |ids|
  {
    if dim == 0 then []
    else
      ScaleSum(dim - 1, 1, |ids|);
      Stack(ids, dim - 1, numberOfCells) + Shift(ids, (dim - 1) * numberOfCells)
  }

  /** Entry `j` of copy `k` of the stack is `ids[j] + k * numberOfCells`. */
  lemma {:induction false} StackAt(ids: seq<int>, dim: nat, numberOfCells: int, k: int, j: int)
    requires 0 <= k < dim && 0 <= j < |ids|
    ensures 0 <= Flat(k, j, |ids|) < |Stack(ids, dim, numberOfCells)|
    ensures Stack(ids, dim, numberOfCells)[Flat(k, j, |ids|)] == ids[j] + k * numberOfCells
  {
    FlatInRow(k, j, |ids|, dim);
    var rest := Stack(ids, dim - 1, numberOfCells);
    if k < dim - 1 {
      StackAt(ids, dim - 1, numberOfCells, k, j);
    } else {
      assert Flat(k, j, |ids|) == |rest| + j;
    }
  }

  /**
   * Stacking every cell of a mesh gives every position of the flattened
   * variable, in order.
   */
  lemma {:induction false} StackOfAllCells(dim: nat, numberOfCells: nat)
    ensures Stack(Arange(0, numberOfCells), dim, numberOfCells) == Arange(0, dim * numberOfCells)
  {
    if dim > 0 {
      StackOfAllCells(dim - 1, numberOfCells);
      var low := (dim - 1) * numberOfCells;
      ScaleMonotone(0, dim - 1, numberOfCells);
      ScaleSum(dim - 1, 1, numberOfCells);
      ArangeShift(0, numberOfCells, low);
      ArangeSplit(0, low, low + numberOfCells);
    }
  }

  const Int32Modulus := 0x1_0000_0000
  const Int32Min := -0x8000_0000

  /** `astype('int32')` of one integer: two's-complement wrap-around. */
  function ToInt32(x: int): (r: int)
    ensures Int32Min <= r < Int32Min + Int32Modulus
    ensures (x - r) % Int32Modulus == 0
    ensures Int32Min <= x < Int32Min + Int32Modulus ==> r == x
  {
    (x - Int32Min) % Int32Modulus + Int32Min
  }

  /** `astype('int32')` of an array. */
  function ToInt32s(s: seq<int>): (r: seq<int>)
    ensures |r| == |s|
    ensures forall i :: 0 <= i < |s| ==> r[i] == ToInt32(s[i])
  {
    seq(|s|, i requires 0 <= i < |s| => ToInt32(s[i]))
  }

  /** Every entry of a stack of cell IDs is a position of the flattened variable. */
  lemma {:induction false} StackInRange(ids: seq<int>, dim: nat, numberOfCells: nat)
    requires forall j :: 0 <= j < |ids| ==> 0 <= ids[j] < numberOfCells
    ensures forall i :: 0 <= i < |Stack(ids, dim, numberOfCells)| ==>
              0 <= Stack(ids, dim, numberOfCells)[i] < dim * numberOfCells
  {
    if dim > 0 {
      StackInRange(ids, dim - 1, numberOfCells);
      var low := (dim - 1) * numberOfCells;
      ScaleMonotone(0, dim - 1, numberOfCells);
      ScaleSum(dim - 1, 1, numberOfCells);
      assert low + numberOfCells == dim * numberOfCells;
    }
  }

  /**
   * The wrap-around never changes a stack of cell IDs whose variable has
   * at most 2^31 entries.
   */
  lemma StackFitsInt32(ids: seq<int>, dim: nat, numberOfCells: nat)
    requires forall j :: 0 <= j < |ids| ==> 0 <= ids[j] < numberOfCells
    requires dim * numberOfCells <= -Int32Min
    ensures ToInt32s(Stack(ids, dim, numberOfCells)) == Stack(ids, dim, numberOfCells)
  {
    StackInRange(ids, dim, numberOfCells);
  }

  /** numpy's reading of an index into an axis of `width` entries, counting negatives from the end. */
  function AxisIndex(i: int, width: int): (r: Option<nat>)
    ensures r.Some? <==> -width <= i < width
    ensures r.Some? ==> r.value < width && (r.value == i || r.value == i + width)
  {
    if 0 <= i < width then Some(i)
    else if -width <= i < 0 then Some(i + width)
    else None
  }

  /** Every index in `ids` is a valid numpy index into an axis of `width` entries. */
  predicate IndicesValid(ids: seq<int>, width: int)
  {
    forall j :: 0 <= j < |ids| ==> AxisIndex(ids[j], width).Some?
  }

  /**
   * `values.reshape(dim, width)[..., ids].ravel()` when every index is
   * valid: from each row, the entries `ids` picks, rows in order.
   */
  function Pick(values: seq<real>, width: nat, dim: nat, ids: seq<int>): (r: seq<real>)
    requires |values| == dim * width && IndicesValid(ids, width)
    ensures |r| == dim * |ids|
  {
    if dim == 0 then []
    else
      ScaleSum(dim - 1, 1, width);
      ScaleSum(dim - 1, 1, |ids|);
      var low := (dim - 1) * width;
      ScaleMonotone(0, dim - 1, width);
      Pick(values[..low], width, dim - 1, ids)
        + seq(|ids|, j requires 0 <= j < |ids| => values[low + AxisIndex(ids[j], width).value])
  }

  /** Entry `j` of row `k` of a pick is the picked entry of row `k` of the values. */
  lemma {:induction false} PickAt(values: seq<real>, width: nat, dim: nat, ids: seq<int>, k: int, j: int)
    requires |values| == dim * width && IndicesValid(ids, width)
    requires 0 <= k < dim && 0 <= j < |ids|
    ensures 0 <= Flat(k, j, |ids|) < |Pick(values, width, dim, ids)|
    ensures 0 <= Flat(k, AxisIndex(ids[j], width).value, width) < |values|
    ensures Pick(values, width, dim, ids)[Flat(k, j, |ids|)]
         == values[Flat(k, AxisIndex(ids[j], width).value, width)]
  {
    var a := AxisIndex(ids[j], width).value;
    FlatInRow(k, j, |ids|, dim);
    FlatInRow(k, a, width, dim);
    ScaleSum(dim - 1, 1, width);
    ScaleMonotone(0, dim - 1, width);
    var low := (dim - 1) * width;
    var rest := Pick(values[..low], width, dim - 1, ids);
    if k < dim - 1 {
      PickAt(values[..low], width, dim - 1, ids, k, j);
      FlatInRow(k, a, width, dim - 1);
    } else {
      assert Flat(k, j, |ids|) == |rest| + j;
    }
  }

  /**
   * `values.reshape(dim, width)[..., ids].ravel()`: numpy raises
   * `IndexError` when any index is outside the axis.
   */
  function Select(values: seq<real>, width: nat, dim: nat, ids: seq<int>): (r: Result<seq<real>, SolverError>)
    requires |values| == dim * width
    ensures r.Ok? <==> IndicesValid(ids, width)
    ensures r.Ok? ==> r.value == Pick(values, width, dim, ids)
    ensures r.Err? ==> r.error == IndexOutOfRange
  {
    if IndicesValid(ids, width) then Ok(Pick(values, width, dim, ids)) else Err(IndexOutOfRange)
  }

  /** Picking every cell, in order, returns the values unchanged. */
  lemma {:induction false} PickAllCells(values: seq<real>, width: nat, dim: nat)
    requires |values| == dim * width
    ensures IndicesValid(Arange(0, width), width)
    ensures Pick(values, width, dim, Arange(0, width)) == values
  {
    var ids := Arange(0, width);
    assert IndicesValid(ids, width);
    if dim > 0 {
      ScaleSum(dim - 1, 1, width);
      ScaleMonotone(0, dim - 1, width);
      var low := (dim - 1) * width;
      PickAllCells(values[..low], width, dim - 1);
      var tail := seq(|ids|, j requires 0 <= j < |ids| => values[low + AxisIndex(ids[j], width).value]);
      assert tail == values[low..];
      assert values == values[..low] + values[low..];
    }
  }
}

=== FILE: trilinos.dfy ===
/**
 * `TrilinosSolver`: the facade every Trilinos solver shares.  It keeps the
 * stored variable, matrix and right-hand side, a cache of the global matrix
 * and Epetra vectors, and a dirty flag saying whether the cached vectors
 * must be refilled from the variable before the next solve.
 */
module TrilinosSolver {
  import opened Results
  import opened Ranges
  import opened SolverBase
  import opened StackedIDs

  /** An Epetra map; `SameAs` compares two maps by value. */
  datatype EpetraMap = EpetraMap(globalElements: seq<int>)

  /** An Epetra vector: the map it is laid out on, and its local values. */
  datatype EpetraVector = EpetraVector(layout: EpetraMap, values: seq<real>)

  /** The matrix `_getTrilinosMatrix` builds: its entries, and its range, domain and column maps. */
  datatype TrilinosMatrix = TrilinosMatrix(entries: int, rangeMap: EpetraMap, domainMap: EpetraMap, colMap: EpetraMap)

  /** The `globalVectors` tuple. */
  datatype GlobalVectors = GlobalVectors(matrix: TrilinosMatrix, nonOverlapping: EpetraVector,
                                         nonOverlappingRHS: EpetraVector, overlapping: EpetraVector)

  /** The mesh matrix wrapper: which wrapper object it is, and the matrix it currently wraps. */
  datatype MeshMatrix = MeshMatrix(wrapper: nat, matrix: int)

  /** What the mesh contributes: its cell count and this partition's local cell IDs. */
  datatype Mesh = Mesh(numberOfCells: nat, localNonOverlappingCellIDs: seq<int>, localOverlappingCellIDs: seq<int>)

  /** A coupled variable's count of variables, or a single variable's element shape. */
  datatype Components = Coupled(count: nat) | Element(shape: seq<nat>)

  /** A cell variable and its values, flattened component by component. */
  datatype CellVariable = CellVariable(mesh: Mesh, components: Components, values: seq<real>)

  /** The right-hand side: an array of values, or a coupled cell variable, named by reference. */
  datatype RhsVector = PlainRhs(values: seq<real>) | CoupledRhs(reference: int)

  /** What `_storeMatrix` keeps. */
  datatype Stored = Stored(v: CellVariable, matrix: MeshMatrix, rhs: RhsVector)

  /**
   * The solver's attributes: the stored triple (absent before the first
   * `_storeMatrix`), `_dirty`, and `globalVectors` (absent until built and
   * after `_deleteGlobalMatrixAndVectors`).
   */
  datatype State = State(stored: Option<Stored>, dirty: bool, cache: Option<GlobalVectors>)

  /**
   * The Trilinos and mesh-matrix calls the facade makes: building the
   * global matrix, the local length of an Epetra map, refilling the global
   * matrix from the wrapper (`asTrilinosMeshMatrix`), `ReplaceMyValues`
   * (old values, new values, indices), indexing a coupled right-hand side
   * by cell IDs, and the wrapper's `flush`, which gives the wrapper as it
   * is afterwards.
   */
  datatype Backend = Backend(getTrilinosMatrix: MeshMatrix -> TrilinosMatrix,
                             localLength: EpetraMap -> nat,
                             fill: (MeshMatrix, TrilinosMatrix) -> int,
                             replace: (seq<real>, seq<real>, seq<int>) -> seq<real>,
                             coupledAt: (int, seq<int>) -> seq<real>,
                             flush: MeshMatrix -> MeshMatrix)

  /** `numpy.prod` of an element shape; the empty shape of a scalar gives 1. */
  function Product(shape: seq<nat>): (r: nat)
    ensures |shape| == 0 ==> r == 1
    ensures r == 0 <==> exists i :: 0 <= i < |shape| && shape[i] == 0
  {
    if |shape| == 0 then 1
    else
      var rest := Product(shape[1..]);
      assert forall i :: 1 <= i < |shape| ==> shape[i] == shape[1..][i - 1];
      shape[0] * rest
  }

  /** The number of components stacked for a variable. */
  function Dim(c: Components): (r: nat)
    ensures c.Coupled? ==> r == c.count
    ensures c.Element? ==> r == Product(c.shape)
  {
    match c
    case Coupled(count) => count
    case Element(shape) => Product(shape)
  }

  /** A variable holds one value per component per cell. */
  predicate ShapeValid(v: CellVariable)
  {
    |v.values| == Dim(v.components) * v.mesh.numberOfCells
  }

  /** Each cached vector is laid out on the map of the global matrix it belongs with. */
  predicate WellFormed(gv: GlobalVectors)
  {
    && gv.nonOverlapping.layout == gv.matrix.domainMap
    && gv.nonOverlappingRHS.layout == gv.matrix.rangeMap
    && gv.overlapping.layout == gv.matrix.colMap
  }

  /**
   * What every reachable state satisfies: the cache exists only once a
   * matrix is stored, the stored variable has its shape's number of values,
   * and the cached vectors are laid out on their matrix's maps.
   */
  predicate Valid(s: State)
  {
    && (s.cache.Some? ==> s.stored.Some? && WellFormed(s.cache.value))
    && (s.stored.Some? ==> ShapeValid(s.stored.value.v))
  }

  /**
   * `__init__`: the abstract base class refuses to be built; a subclass
   * ends construction with `_reset`, so it starts dirty with nothing stored
   * or cached.
   */
  function Construct(isAbstractClass: bool): (r: Result<State, SolverError>)
    ensures r.Err? <==> isAbstractClass
    ensures r.Err? ==> r.error == AbstractClass
    ensures r.Ok? ==> r.value.dirty && r.value.stored.None? && r.value.cache.None? && Valid(r.value)
  {
    if isAbstractClass then Err(AbstractClass) else Ok(Reset(State(None, false, None)))
  }

  /** `_reset`: marks the cached vectors as needing a refill, and changes nothing else. */
  function Reset(s: State): (r: State)
    ensures r.dirty
    ensures r.stored == s.stored && r.cache == s.cache
    ensures Valid(s) ==> Valid(r)
  {
    s.(dirty := true)
  }

  /**
   * `_storeMatrix`: overwrites the variable and right-hand side; the first
   * call keeps the matrix wrapper, later calls keep that same wrapper and
   * only swap the matrix inside it.  Neither the dirty flag nor the cache
   * changes.
   */
  function StoreMatrix(s: State, v: CellVariable, matrix: MeshMatrix, rhs: RhsVector): (r: State)
    requires Valid(s) && ShapeValid(v)
    ensures Valid(r)
    ensures r.stored.Some? && r.stored.value.v == v && r.stored.value.rhs == rhs
    ensures r.stored.value.matrix.matrix == matrix.matrix
    ensures s.stored.None? ==> r.stored.value.matrix == matrix
    ensures s.stored.Some? ==> r.stored.value.matrix.wrapper == s.stored.value.matrix.wrapper
    ensures r.dirty == s.dirty && r.cache == s.cache
  {
    var kept := if s.stored.Some? then s.stored.value.matrix.(matrix := matrix.matrix) else matrix;
    s.(stored := Some(Stored(v, kept, rhs)))
  }

  /** A zero Epetra vector on `m`. */
  function NewVector(m: EpetraMap, be: Backend): (r: EpetraVector)
    ensures r.layout == m && |r.values| == be.localLength(m)
    ensures forall i :: 0 <= i < |r.values| ==> r.values[i] == 0.0
  {
    EpetraVector(m, seq(be.localLength(m), _ => 0.0))
  }

  /** The cache built from the wrapper: the global matrix, and zero vectors on its domain, range and column maps. */
  function Build(matrix: MeshMatrix, be: Backend): (gv: GlobalVectors)
    ensures WellFormed(gv)
    ensures gv.matrix == be.getTrilinosMatrix(matrix)
  {
    var gm := be.getTrilinosMatrix(matrix);
    GlobalVectors(gm, NewVector(gm.domainMap, be), NewVector(gm.rangeMap, be), NewVector(gm.colMap, be))
  }

  /** The IDs stacked for the non-overlapping vectors, after `astype('int32')`. */
  function NonOverlappingStack(v: CellVariable): seq<int>
  {
    ToInt32s(Stack(v.mesh.localNonOverlappingCellIDs, Dim(v.components), v.mesh.numberOfCells))
  }

  /** The IDs stacked for the overlapping vector, after `astype('int32')`. */
  function OverlappingStack(v: CellVariable): seq<int>
  {
    ToInt32s(Stack(v.mesh.localOverlappingCellIDs, Dim(v.components), v.mesh.numberOfCells))
  }

  /**
   * The right-hand side's values at the non-overlapping cells: an array is
   * reshaped to the variable's shape (numpy refuses another size) and
   * indexed like the variable; a coupled variable is indexed by cell IDs.
   */
  function RhsValues(v: CellVariable, rhs: RhsVector, be: Backend): (r: Result<seq<real>, SolverError>)
    requires ShapeValid(v)
    ensures rhs.PlainRhs? && |rhs.values| != |v.values| ==> r == Err(ReshapeMismatch)
    ensures rhs.PlainRhs? && |rhs.values| == |v.values| ==>
              r == Select(rhs.values, v.mesh.numberOfCells, Dim(v.components), v.mesh.localNonOverlappingCellIDs)
    ensures rhs.CoupledRhs? ==> r == Ok(be.coupledAt(rhs.reference, v.mesh.localNonOverlappingCellIDs))
  {
    match rhs
    case PlainRhs(values) =>
      if |values| != |v.values| then Err(ReshapeMismatch)
      else Select(values, v.mesh.numberOfCells, Dim(v.components), v.mesh.localNonOverlappingCellIDs)
    case CoupledRhs(reference) => Ok(be.coupledAt(reference, v.mesh.localNonOverlappingCellIDs))
  }

  /**
   * The dirty branch of `_globalMatrixAndVectors`: refills the global matrix
   * from the wrapper, then writes the variable's non-overlapping values, the
   * right-hand side's non-overlapping values and all the variable's values
   * into the cached vectors at the stacked IDs.  `numpy.stack` of no arrays
   * raises before anything is indexed.  The maps never change.
   */
  function Refresh(st: Stored, gv: GlobalVectors, be: Backend): (r: Result<GlobalVectors, SolverError>)
    requires ShapeValid(st.v) && WellFormed(gv)
    ensures Dim(st.v.components) == 0 ==> r == Err(EmptyStack)
    ensures Dim(st.v.components) > 0 && !IndicesValid(st.v.mesh.localNonOverlappingCellIDs, st.v.mesh.numberOfCells)
            ==> r == Err(IndexOutOfRange)
    ensures r.Ok? <==> Dim(st.v.components) > 0
                       && IndicesValid(st.v.mesh.localNonOverlappingCellIDs, st.v.mesh.numberOfCells)
                       && RhsValues(st.v, st.rhs, be).Ok?
    ensures r.Err? && Dim(st.v.components) > 0
            && IndicesValid(st.v.mesh.localNonOverlappingCellIDs, st.v.mesh.numberOfCells)
            ==> r.error == RhsValues(st.v, st.rhs, be).error
    ensures r.Ok? ==>
              var v := st.v;
              var picked := Pick(v.values, v.mesh.numberOfCells, Dim(v.components), v.mesh.localNonOverlappingCellIDs);
              && WellFormed(r.value)
              && r.value.matrix == gv.matrix.(entries := be.fill(st.matrix, gv.matrix))
              && r.value.nonOverlapping
                 == gv.nonOverlapping.(values := WriteInto(gv.nonOverlapping.values, be.replace(gv.nonOverlapping.values, picked, NonOverlappingStack(v))))
              && r.value.nonOverlappingRHS
                 == gv.nonOverlappingRHS.(values := WriteInto(gv.nonOverlappingRHS.values,
                      be.replace(gv.nonOverlappingRHS.values, RhsValues(v, st.rhs, be).value, NonOverlappingStack(v))))
              && r.value.overlapping
                 == gv.overlapping.(values := WriteInto(gv.overlapping.values, be.replace(gv.overlapping.values, v.values, OverlappingStack(v))))
  {
    var v := st.v;
    var dim := Dim(v.components);
    if dim == 0 then Err(EmptyStack)
    else
      match Select(v.values, v.mesh.numberOfCells, dim, v.mesh.localNonOverlappingCellIDs)
      case Err(e) => Err(e)
      case Ok(picked) =>
        match RhsValues(v, st.rhs, be)
        case Err(e) => Err(e)
        case Ok(rhsPicked) =>
          var nonStack := NonOverlappingStack(v);
          Ok(GlobalVectors(
               gv.matrix.(entries := be.fill(st.matrix, gv.matrix)),
               gv.nonOverlapping.(values := WriteInto(gv.nonOverlapping.values, be.replace(gv.nonOverlapping.values, picked, nonStack))),
               gv.nonOverlappingRHS.(values := WriteInto(gv.nonOverlappingRHS.values, be.replace(gv.nonOverlappingRHS.values, rhsPicked, nonStack))),
               gv.overlapping.(values := WriteInto(gv.overlapping.values, be.replace(gv.overlapping.values, v.values, OverlappingStack(v))))))
  }

  /**
   * On a mesh held whole by one partition, with no more than 2^31 values,
   * the refresh writes the variable's values and the right-hand side's
   * values, in their flattened order, to positions `0 .. dim * numberOfCells`.
   */
  lemma SerialRefresh(st: Stored, gv: GlobalVectors, be: Backend)
    requires ShapeValid(st.v) && WellFormed(gv) && Dim(st.v.components) > 0
    requires st.v.mesh.localNonOverlappingCellIDs == Arange(0, st.v.mesh.numberOfCells)
    requires st.v.mesh.localOverlappingCellIDs == Arange(0, st.v.mesh.numberOfCells)
    requires Dim(st.v.components) * st.v.mesh.numberOfCells <= -Int32Min
    requires st.rhs.PlainRhs? && |st.rhs.values| == |st.v.values|
    ensures Refresh(st, gv, be).Ok?
    ensures var all := Arange(0, Dim(st.v.components) * st.v.mesh.numberOfCells);
            var r := Refresh(st, gv, be).value;
            && r.nonOverlapping.values == WriteInto(gv.nonOverlapping.values, be.replace(gv.nonOverlapping.values, st.v.values, all))
            && r.nonOverlappingRHS.values == WriteInto(gv.nonOverlappingRHS.values, be.replace(gv.nonOverlappingRHS.values, st.rhs.values, all))
            && r.overlapping.values == WriteInto(gv.overlapping.values, be.replace(gv.overlapping.values, st.v.values, all))
  {
    var n := st.v.mesh.numberOfCells;
    var dim := Dim(st.v.components);
    ArangeMembership(0, n);
    assert forall j :: 0 <= j < |Arange(0, n)| ==> Arange(0, n)[j] in Arange(0, n);
    PickAllCells(st.v.values, n, dim);
    PickAllCells(st.rhs.values, n, dim);
    StackOfAllCells(dim, n);
    StackFitsInt32(Arange(0, n), dim, n);
  }

  /**
   * `_globalMatrixAndVectors`: builds the cache only when there is none,
   * refreshes it only when dirty (clearing the flag), and otherwise returns
   * the cache untouched.  An exception leaves a freshly built cache in
   * place and the solver still dirty.
   */
  function GlobalMatrixAndVectors(s: State, be: Backend): (r: (State, Result<GlobalVectors, SolverError>))
    requires Valid(s)
    ensures Valid(r.0) && r.0.stored == s.stored
    ensures s.stored.None? ==> r == (s, Err(MissingAttribute("matrix")))
    ensures s.cache.Some? && !s.dirty ==> r == (s, Ok(s.cache.value))
    ensures s.stored.Some? && s.cache.None? && !s.dirty ==>
              var c := Build(s.stored.value.matrix, be);
              r == (s.(cache := Some(c)), Ok(c))
    ensures s.stored.Some? ==> r.0.cache.Some?
    ensures s.cache.None? && s.stored.Some? ==>
              r.0.cache.value.matrix.rangeMap == be.getTrilinosMatrix(s.stored.value.matrix).rangeMap
              && r.0.cache.value.matrix.domainMap == be.getTrilinosMatrix(s.stored.value.matrix).domainMap
              && r.0.cache.value.matrix.colMap == be.getTrilinosMatrix(s.stored.value.matrix).colMap
    ensures s.cache.Some? && r.0.cache.Some? ==>
              r.0.cache.value.matrix.rangeMap == s.cache.value.matrix.rangeMap
              && r.0.cache.value.matrix.domainMap == s.cache.value.matrix.domainMap
              && r.0.cache.value.matrix.colMap == s.cache.value.matrix.colMap
    ensures r.1.Ok? ==> !r.0.dirty && r.0.cache == Some(r.1.value)
    ensures r.1.Err? ==> r.0.dirty == s.dirty
    ensures s.dirty && s.stored.Some? ==>
              var base := if s.cache.Some? then s.cache.value else Build(s.stored.value.matrix, be);
              r.1 == Refresh(s.stored.value, base, be)
  {
    if s.stored.None? then (s, Err(MissingAttribute("matrix")))
    else
      var built := if s.cache.Some? then s else s.(cache := Some(Build(s.stored.value.matrix, be)));
      if !built.dirty then (built, Ok(built.cache.value))
      else
        match Refresh(s.stored.value, built.cache.value, be)
        case Err(e) => (built, Err(e))
        case Ok(gv) => (built.(dirty := false, cache := Some(gv)), Ok(gv))
  }

  /**
   * `_deleteGlobalMatrixAndVectors`: flushes the matrix wrapper, then drops
   * the cache.  Python raises `AttributeError` when there is no matrix to
   * flush, and after the flush when there is no cache to delete.
   */
  function Delete(s: State, be: Backend): (r: (State, Result<(), SolverError>))
    requires Valid(s)
    ensures Valid(r.0) && r.0.dirty == s.dirty && r.0.cache.None?
    ensures s.stored.None? ==> r == (s, Err(MissingAttribute("matrix")))
    ensures s.stored.Some? ==>
              && r.0.stored.Some?
              && r.0.stored.value.v == s.stored.value.v && r.0.stored.value.rhs == s.stored.value.rhs
              && r.0.stored.value.matrix == be.flush(s.stored.value.matrix)
    ensures s.stored.Some? && s.cache.None? ==> r.1 == Err(MissingAttribute("globalVectors"))
    ensures r.1.Ok? <==> s.cache.Some?
  {
    if s.stored.None? then (s, Err(MissingAttribute("matrix")))
    else
      var flushed := s.(stored := Some(s.stored.value.(matrix := be.flush(s.stored.value.matrix))));
      if s.cache.None? then (flushed, Err(MissingAttribute("globalVectors")))
      else (flushed.(cache := None), Ok(()))
  }

  /**
   * After a delete the next access builds a new cache from the flushed
   * wrapper, so a matrix swapped in by `_storeMatrix` reaches the maps.
   * The new vectors are refilled only when the solver is dirty; a clean
   * solver hands back the freshly built, zero vectors.
   */
  lemma DeleteThenAccessRebuilds(s: State, be: Backend)
    requires Valid(s) && s.stored.Some?
    ensures var after := GlobalMatrixAndVectors(Delete(s, be).0, be).0;
            var flushed := be.flush(s.stored.value.matrix);
            && after.cache.Some?
            && after.cache.value.matrix.rangeMap == be.getTrilinosMatrix(flushed).rangeMap
            && after.cache.value.matrix.domainMap == be.getTrilinosMatrix(flushed).domainMap
            && after.cache.value.matrix.colMap == be.getTrilinosMatrix(flushed).colMap
    ensures var flushed := be.flush(s.stored.value.matrix);
            GlobalMatrixAndVectors(Delete(s, be).0, be).1
            == if s.dirty then Refresh(s.stored.value.(matrix := flushed), Build(flushed, be), be)
               else Ok(Build(flushed, be))
  {
  }

  /**
   * `_storeMatrix` does not mark the solver dirty: without a `_reset` the
   * next access hands back the old cache, whatever was stored.
   */
  lemma StoreWithoutResetKeepsCache(s: State, v: CellVariable, matrix: MeshMatrix, rhs: RhsVector, be: Backend)
    requires Valid(s) && ShapeValid(v) && s.cache.Some? && !s.dirty
    ensures GlobalMatrixAndVectors(StoreMatrix(s, v, matrix, rhs), be).1 == Ok(s.cache.value)
  {
  }

  /** After `_reset`, an access with a well-formed variable refills the cache from what is stored. */
  lemma ResetThenAccessRefreshes(s: State, be: Backend)
    requires Valid(s) && s.stored.Some? && s.cache.Some?
    ensures GlobalMatrixAndVectors(Reset(s), be).1 == Refresh(s.stored.value, s.cache.value, be)
  {
  }

  /** `_solve`'s map guard: the matrix must be square in its maps and match the solution vector. */
  predicate MapsAgree(gv: GlobalVectors)
  {
    gv.matrix.rangeMap == gv.matrix.domainMap && gv.matrix.rangeMap == gv.nonOverlapping.layout
  }

  /** On a well-formed cache the guard only asks that the range and domain maps are the same. */
  lemma MapsAgreeOnWellFormed(gv: GlobalVectors)
    requires WellFormed(gv)
    ensures MapsAgree(gv) <==> gv.matrix.rangeMap == gv.matrix.domainMap
  {
  }

  /**
   * `_solve`: fetches the cache, refuses mismatched maps, lets the
   * subclass's `_solve_` overwrite the non-overlapping solution vector,
   * imports it into the overlapping vector, and writes that back into the
   * variable (numpy refuses a reshape to another size).  `solveFnc` is the
   * subclass's `_solve_`, which may raise, and `importFnc` is `Import` from
   * the domain map to the column map; both are given the vectors and return
   * the values they write into them in place.  An exception from `_solve_`
   * leaves the fetched cache in place and the variable untouched.
   */
  function Solve(s: State, be: Backend,
                 solveFnc: (TrilinosMatrix, EpetraVector, EpetraVector) -> Result<seq<real>, SolverError>,
                 importFnc: (EpetraVector, EpetraVector) -> seq<real>): (r: (State, Result<seq<real>, SolverError>))
    requires Valid(s)
    ensures Valid(r.0)
    ensures GlobalMatrixAndVectors(s, be).1.Err? ==>
              r == (GlobalMatrixAndVectors(s, be).0, Err(GlobalMatrixAndVectors(s, be).1.error))
    ensures GlobalMatrixAndVectors(s, be).1.Ok? && !MapsAgree(GlobalMatrixAndVectors(s, be).1.value) ==>
              r == (GlobalMatrixAndVectors(s, be).0, Err(SolutionVariableNumber))
    ensures GlobalMatrixAndVectors(s, be).1.Ok? && MapsAgree(GlobalMatrixAndVectors(s, be).1.value) ==>
              var gv := GlobalMatrixAndVectors(s, be).1.value;
              var solved := solveFnc(gv.matrix, gv.nonOverlapping, gv.nonOverlappingRHS);
              && (solved.Err? ==> r == (GlobalMatrixAndVectors(s, be).0, Err(solved.error)))
              && (solved.Ok? ==> s.stored.Some? && (r.1.Ok? || r.1 == Err(ReshapeMismatch))
                                 && (r.1 == Err(ReshapeMismatch) <==> |gv.overlapping.values| != |s.stored.value.v.values|))
    ensures r.1.Ok? ==>
              var gv := GlobalMatrixAndVectors(s, be).1.value;
              var solved := solveFnc(gv.matrix, gv.nonOverlapping, gv.nonOverlappingRHS);
              && solved.Ok?
              && var x := gv.nonOverlapping.(values := WriteInto(gv.nonOverlapping.values, solved.value));
              && MapsAgree(gv)
              && r.1.value == WriteInto(gv.overlapping.values, importFnc(gv.overlapping, x))
              && |r.1.value| == |s.stored.value.v.values|
              && s.stored.Some? && r.0.stored.Some?
              && r.0.stored.value.v == s.stored.value.v.(values := r.1.value)
              && r.0.cache == Some(gv.(nonOverlapping := x, overlapping := gv.overlapping.(values := r.1.value)))
              && !r.0.dirty
  {
    var (s1, access) := GlobalMatrixAndVectors(s, be);
    match access
    case Err(e) => (s1, Err(e))
    case Ok(gv) =>
      if !MapsAgree(gv) then (s1, Err(SolutionVariableNumber))
      else
        match solveFnc(gv.matrix, gv.nonOverlapping, gv.nonOverlappingRHS)
        case Err(e) => (s1, Err(e))
        case Ok(solved) =>
          var x := gv.nonOverlapping.(values := WriteInto(gv.nonOverlapping.values, solved));
          var overlapped := gv.overlapping.(values := WriteInto(gv.overlapping.values, importFnc(gv.overlapping, x)));
          var cached := s1.(cache := Some(gv.(nonOverlapping := x, overlapping := overlapped)));
          var st := s1.stored.value;
          if |overlapped.values| != |st.v.values| then (cached, Err(ReshapeMismatch))
          else (cached.(stored := Some(st.(v := st.v.(values := overlapped.values)))), Ok(overlapped.values))
  }

  /**
   * `_calcResidualVector`: with a `residualFn`, returns what it gives for
   * the stored variable, matrix and right-hand side and touches nothing;
   * otherwise forms the non-overlapping residual with `residualFnc` and
   * imports it into a fresh vector on the column map with `importFnc`.
   */
  function CalcResidualVector(s: State, be: Backend,
                              residualFn: Option<(CellVariable, MeshMatrix, RhsVector) -> EpetraVector>,
                              residualFnc: GlobalVectors -> EpetraVector,
                              importFnc: (EpetraVector, EpetraVector) -> seq<real>): (r: (State, Result<EpetraVector, SolverError>))
    requires Valid(s)
    ensures Valid(r.0)
    ensures residualFn.Some? ==> r.0 == s
    ensures residualFn.Some? && s.stored.Some? ==>
              r.1 == Ok(residualFn.value(s.stored.value.v, s.stored.value.matrix, s.stored.value.rhs))
    ensures residualFn.Some? && s.stored.None? ==> r.1 == Err(MissingAttribute("var"))
    ensures residualFn.None? ==> r.0 == GlobalMatrixAndVectors(s, be).0
    ensures residualFn.None? && r.1.Err? ==>
              GlobalMatrixAndVectors(s, be).1.Err? && r.1.error == GlobalMatrixAndVectors(s, be).1.error
    ensures r.1.Ok? && residualFn.None? ==>
              GlobalMatrixAndVectors(s, be).1.Ok?
              && r.1.value.layout == GlobalMatrixAndVectors(s, be).1.value.matrix.colMap
  {
    match residualFn
    case Some(fn) =>
      if s.stored.None? then (s, Err(MissingAttribute("var")))
      else (s, Ok(fn(s.stored.value.v, s.stored.value.matrix, s.stored.value.rhs)))
    case None =>
      var (s1, access) := GlobalMatrixAndVectors(s, be);
      match access
      case Err(e) => (s1, Err(e))
      case Ok(gv) =>
        var target := NewVector(gv.matrix.colMap, be);
        (s1, Ok(target.(values := WriteInto(target.values, importFnc(target, residualFnc(gv))))))
  }

  /**
   * `_calcResidual`: with a `residualFn`, returns what it gives and touches
   * nothing; otherwise the communicator's `Norm2` of the non-overlapping
   * residual.  Either way `self.var` is read first, so with nothing stored
   * the `AttributeError` names `var`.
   */
  function CalcResidual<R>(s: State, be: Backend,
                           residualFn: Option<(CellVariable, MeshMatrix, RhsVector) -> R>,
                           residualFnc: GlobalVectors -> EpetraVector,
                           norm2: EpetraVector -> R): (r: (State, Result<R, SolverError>))
    requires Valid(s)
    ensures Valid(r.0)
    ensures residualFn.Some? ==> r.0 == s
    ensures residualFn.Some? && s.stored.Some? ==>
              r.1 == Ok(residualFn.value(s.stored.value.v, s.stored.value.matrix, s.stored.value.rhs))
    ensures s.stored.None? ==> r == (s, Err(MissingAttribute("var")))
    ensures residualFn.None? ==> r.0 == GlobalMatrixAndVectors(s, be).0
    ensures residualFn.None? && r.1.Err? && s.stored.Some? ==>
              GlobalMatrixAndVectors(s, be).1.Err? && r.1.error == GlobalMatrixAndVectors(s, be).1.error
    ensures r.1.Ok? && residualFn.None? ==>
              GlobalMatrixAndVectors(s, be).1.Ok?
              && r.1.value == norm2(residualFnc(GlobalMatrixAndVectors(s, be).1.value))
  {
    if s.stored.None? then (s, Err(MissingAttribute("var")))
    else
    match residualFn
    case Some(fn) => (s, Ok(fn(s.stored.value.v, s.stored.value.matrix, s.stored.value.rhs)))
    case None =>
      var (s1, access) := GlobalMatrixAndVectors(s, be);
      match access
      case Err(e) => (s1, Err(e))
      case Ok(gv) => (s1, Ok(norm2(residualFnc(gv))))
  }

  /**
   * The residual and the residual vector are formed from the same access:
   * a `residualFn` gives both the same answer, and without one both leave
   * the solver in the same state and fail or succeed together once a
   * variable is stored.
   */
  lemma ResidualsShareAccess(s: State, be: Backend,
                             fn: (CellVariable, MeshMatrix, RhsVector) -> EpetraVector,
                             residualFnc: GlobalVectors -> EpetraVector,
                             importFnc: (EpetraVector, EpetraVector) -> seq<real>,
                             norm2: EpetraVector -> real)
    requires Valid(s)
    ensures CalcResidual(s, be, Some(fn), residualFnc, (x: EpetraVector) => x)
         == CalcResidualVector(s, be, Some(fn), residualFnc, importFnc)
    ensures CalcResidual(s, be, None, residualFnc, norm2).0 == CalcResidualVector(s, be, None, residualFnc, importFnc).0
    ensures s.stored.Some? ==>
              && (CalcResidual(s, be, None, residualFnc, norm2).1.Ok?
                  <==> CalcResidualVector(s, be, None, residualFnc, importFnc).1.Ok?)
              && (CalcResidual(s, be, None, residualFnc, norm2).1.Err? ==>
                    CalcResidual(s, be, None, residualFnc, norm2).1.error
                    == CalcResidualVector(s, be, None, residualFnc, importFnc).1.error)
  {
  }
}
